=== FILE: README.md ===
# Twisted-bilayer structures: layer bookkeeping, hopping tables, Bloch matrix, commensuration

This project models the core of `periodic_structures.py` from the tBG
package. That package builds atomistic models of twisted bilayer graphene
and assembles their tight-binding Bloch Hamiltonians. The model covers
four pieces of the file:

- **Layer and sublattice bookkeeping.**
  - `_layer_inds`, `_layer_inds_sublatt` and `species` turn per-layer
    site counts and per-layer (A, B) sublattice counts into contiguous
    inclusive index ranges and a label vector (module `LayerIndex`).
  - `append_layers` stacks copies of the bottom or top layer at new
    heights (module `Layered`).
- **Hopping-table re-keying.** `hoppings_2to3` turns every key (m, n, j)
  of a per-site hopping table into (m, n, 0, j) (module `Hoppings`).
- **Bloch matrix assembly.** `hamilt_cell_diff` fills an N x N complex
  matrix from the one-directional hopping tables and an optional linear
  on-site term (module `Bloch`).
- **Commensuration arithmetic** of the two moire builders:
  - `CommensuStruct` (module `Commensurate`): `rotate_mat_mn`, the
    supercell matrices, the recorded twist angle, and the identity that
    makes the bottom supercell the lattice of the whole structure;
  - `TBG30Approximant` (module `Approximant`): the choice of `n_top` as
    the integer nearest to sqrt 3 * n_bottom, the gcd and multiple-of-3
    refusals, and the two supercells.

Representation choices:

- A Python dict is an insertion-ordered association list. This keeps the
  iteration order of `hamilt_cell_diff` and makes re-keying a
  length-preserving map. A dict's keys are distinct, but `Hoppings.Row`
  does not enforce it:
  - `Hoppings.Hoppings2to3` proves that re-keying keeps keys distinct
    exactly when they were distinct (`DistinctKeys`);
  - the `Bloch` results hold for any list, distinct keys or not. A
    repeated key simply contributes once per entry.
- A complex number is a pair of reals (`ComplexNumbers`).
- The phase exp(i k . R) is a function parameter of (m, n), so
  Hermiticity holds whatever the phase values are.
- Lattice vectors are exact elements of Z[sqrt 3] over an integer
  denominator (`Sqrt3Ring`, `Supercell`), in units of the bottom lattice
  constant.
- pymatgen's `make_supercell` is represented by what the builders read
  back from it:
  - the enlarged lattice, whose rows are the integer combinations of the
    primitive rows;
  - the site count |det S| of each enlarged one-site sublattice.
- The coordinate array of a layered structure is kept as one block of
  sites per layer. The flat array (`Layered.Coords`) is their
  concatenation, and `Layered.LayerRows` proves that `_layer_inds` finds
  each block in it.
- Errors are values: `Option` and `Result` (`Outcomes`). An exception
  the code raises on data it accepts becomes the `None` or `Err` case of
  the function that raises it. These are:
  - in `append_layers`, a missing source layer or missing top lattice
    vectors;
  - in `append_layers`, a tag with multipliers whose source layer has no
    sites. Line 93 then concatenates a (0, 2) array with the
    one-dimensional `[[z]] * 0`, which raises a ValueError;
  - an empty layer list in
  `species`, and the shared-divisor and multiple-of-3 refusals of the
  approximant builder.
- Four IndexErrors are not modelled as values. They are excluded by
  `requires` clauses instead and listed under "## Left out":
  - `LayerIndex.LayerIndsSublatt` needs a sublattice pair for every layer
    count (line 43);
  - `Hoppings.Hoppings2to3` needs a table for every site (line 121);
  - `Bloch.HamiltCellDiff` and `Bloch.HamiltCellDiffConj` need a table
    for every site, where `self.hoppings[i]` is read (line 129);
  - the same two need every hopping target j to lie in 0 .. nsite-1
    (line 133).

Two behaviours of the code are worth stating on their own:

- **The twist angle.** The cosine computed at line 215 is symmetric in
  (m, n), and its extreme values are fixed:
  - (m, n) and (n, m) report the same angle
    (`Commensurate.TwistCosIsRotation`);
  - the cosine equals 1/2, which is 60 degrees, exactly when m or n is 0,
    so (1, 0) and (0, 1) both report 60 degrees
    (`Commensurate.TwistCosBounds`);
  - the cosine equals 1 exactly when m = n.
- **Copying a tilde layer.** `_coords_xy` reads two things for A-tilde as
  well as for B-tilde, and fails on the first that is missing:
  - line 71 reads the count of layer 1. A single sheet such as
    `Graphene` has no layer 1, so this read fails first, with an
    IndexError (`Layered.OneLayerTilde`);
  - line 72 reads the top lattice vectors. A structure with a second
    layer but no top lattice vectors fails there instead. This happens to
    a single sheet after an A layer has been appended to it
    (`Layered.OneLayerAfterA`).
- **Empty layers.** A layer may have no sites. Copying it fails at
  line 93 as soon as there is a multiplier, but succeeds when its
  multiplier list is empty. So success depends on the site counts as well
  as on the layers present (`Layered.TwoLayerAppend`,
  `Layered.OneLayerBottom`, `Layered.OneLayerAfterA`).

## Model

| member | source | states |
|---|---|---|
| LayerIndex.LayerInds | periodic_structures.py:30-36 | one inclusive range per layer; layer i starts at the sum of the counts before it and holds exactly its own count of sites |
| LayerIndex.LayerIndsPartition | periodic_structures.py:30-36 | the ranges start at 0, end at the total minus 1, and are adjacent; a site index is covered by some range if and only if it lies in 0 .. total-1; no index lies in two ranges |
| LayerIndex.LayerOf | periodic_structures.py:30-36 | every site index below the total has a layer whose range contains it |
| LayerIndex.LayerIndsSublatt | periodic_structures.py:38-45 | sublattice A of layer i starts where the layer starts and holds nA sites; sublattice B follows it and ends where the layer ends; B holds nB sites exactly when nA + nB is the layer's count; when nA fits, the two ranges split the layer range and never overlap |
| LayerIndex.Species | periodic_structures.py:22-28 | the label vector has one entry per site of all layers; an empty layer list has nothing to concatenate, so it fails |
| LayerIndex.LabelsOfLayer | periodic_structures.py:22-28 | within layer i, the first nA labels are 1 and the next nB labels are 2 |
| LayerIndex.SpeciesMatchesSublattices | periodic_structures.py:22-45 | when the counts are the sublattice sums, `species` labels every site of a sublattice-A range 1 and every site of a sublattice-B range 2 |
| LayerIndex.SublatticeLabel | periodic_structures.py:22-45 | the same agreement for one layer and one site |
| Hoppings.RowTo3 | periodic_structures.py:121 | one site's table re-keyed in order: each key (m, n, j) becomes (m, n, 0, j) with the same amplitude; a lookup of a lifted key gives the old lookup; every present key has layer index 0 |
| Hoppings.Hoppings2to3 | periodic_structures.py:120-121 | one table per site; each keeps its size and its amplitude under each lifted key; no key outside layer 0; keys are distinct after re-keying exactly when they were before |
| Hoppings.RowRoundTrip | periodic_structures.py:121 | dropping the layer index again gives back the original table |
| Hoppings.HoppingsRoundTrip | periodic_structures.py:120-121 | re-keying all nsite tables and dropping the layer index gives back the first nsite tables |
| Bloch.AddRowEntry | periodic_structures.py:129-134 | after one site's loop, each entry has grown by the sum of that site's contributions to it |
| Bloch.AddSitesEntry | periodic_structures.py:128-134 | after the loop over the sites, each entry has grown by the sum over all tables of their contributions |
| Bloch.AssembleEntries | periodic_structures.py:124-134 | each entry of the assembled matrix is its on-site term plus the sum of all hopping contributions to it |
| Bloch.HamiltCellDiff | periodic_structures.py:123-135 | the matrix is nsite x nsite; each entry is its on-site term plus the sum of the contributions t * phase to (i, j) and t * conj(phase) to (j, i); it is Hermitian when every amplitude is real |
| Bloch.HamiltCellDiffConj | periodic_structures.py:123-135 | the same assembly with conj(t) * conj(phase) on the mirror entry; its result is Hermitian for every amplitude |
| Bloch.ContributionMirror | periodic_structures.py:133-134 | a single hop contributes conjugate values to (a, b) and (b, a), given a real amplitude or the conjugated mirror term |
| Bloch.AssembleHermitian | periodic_structures.py:124-134 | the assembled matrix equals its own conjugate transpose whenever each hop's mirror term is the conjugate of its forward term, whatever the phase |
| Bloch.AssembleMirrorEntry | periodic_structures.py:124-134 | the entry-wise form: H[b][a] is the conjugate of H[a][b] |
| Bloch.RealAmplitudesAgree | periodic_structures.py:133-134 | with real amplitudes, the code as written and the corrected assembly give the same matrix |
| Bloch.NoHoppings | periodic_structures.py:124-126 | with empty tables the matrix is zero off the diagonal; the diagonal is z times the field, which is all zero for a zero field |
| Bloch.SingleHopEntry | periodic_structures.py:124-134 | for two sites and one hop 0 -> 1, each entry is its on-site term plus that hop's contribution |
| Bloch.SingleHopDiagonal | periodic_structures.py:124-126 | for that system the diagonal entries are real |
| Bloch.SingleHopForward | periodic_structures.py:133 | for that system H[0][1] is t * phase |
| Bloch.SingleHopMirror | periodic_structures.py:134 | for that system the code puts t * conj(phase) into H[1][0] |
| Bloch.SingleHopConjMirror | periodic_structures.py:134 | the corrected assembly puts conj(t * phase) into H[1][0] |
| Bloch.SingleHopRealAmplitudes | periodic_structures.py:131 | the one-hop table has real amplitudes exactly when t is real |
| Bloch.SingleHopNotHermitian | periodic_structures.py:134 | with a non-real t (and unit phase) the code's matrix is not Hermitian |
| Bloch.SingleHopHermitianIff | periodic_structures.py:133-134 | with unit phase, the code's two-site matrix is Hermitian if and only if t is real |
| Bloch.ComplexAmplitudeBreaksHermiticity | periodic_structures.py:134 | with t = i the code's matrix is not Hermitian, while the corrected assembly puts -i at H[1][0] |
| Commensurate.CellCountPos | periodic_structures.py:179-180 | the denominator m^2 + mn + n^2 is positive unless m = n = 0 |
| Commensurate.RotateMatMn | periodic_structures.py:178-183 | the rotation fails exactly for m = n = 0, where Python divides by zero; otherwise its denominator is positive and cos^2 + sin^2 = 1 |
| Commensurate.UnitCircle | periodic_structures.py:179-180 | (m^2 + 4mn + n^2)^2 + 3 (m^2 - n^2)^2 = 4 (m^2 + mn + n^2)^2 |
| Commensurate.TwistCosIsRotation | periodic_structures.py:215 | the recorded twist angle has the cosine of the applied rotation; it is symmetric in (m, n), while swapping m and n flips the sign of the sine |
| Commensurate.TwistCosBounds | periodic_structures.py:215 | the cosine is at most 1 and equals 1 exactly when m = n; it is at least 1/2 exactly when mn >= 0, and equals 1/2 exactly when mn = 0 |
| Commensurate.SupercellDets | periodic_structures.py:204-207 | both supercell matrices have determinant m^2 + mn + n^2 |
| Commensurate.FirstRowX | periodic_structures.py:204-206 | the x-coordinates of the first supercell rows of the bottom and rotated top layers agree, scaled to a common denominator |
| Commensurate.FirstRowY | periodic_structures.py:204-206 | the same for the y-coordinates of the first rows |
| Commensurate.SecondRowX | periodic_structures.py:204-206 | the same for the x-coordinates of the second rows |
| Commensurate.SecondRowY | periodic_structures.py:204-206 | the same for the y-coordinates of the second rows |
| Commensurate.RotatedBottom | periodic_structures.py:185-186 | the rotated bottom lattice in closed form |
| Commensurate.SupercellsCoincide | periodic_structures.py:185-210 | the bottom supercell and the supercell of the rotated top lattice are the same two vectors, for every (m, n) other than (0, 0) |
| Commensurate.MakeStructure | periodic_structures.py:202-215 | the builder fails exactly when m = n = 0 |
| Commensurate.MakeStructureSpec | periodic_structures.py:202-213 | each sublattice holds m^2 + mn + n^2 sites; the layers occupy rows 0 .. 2k-1 and 2k .. 4k-1; the structure's lattice is the bottom supercell and coincides with the top supercell |
| Supercell.TwistedBilayer | periodic_structures.py:208-213 | a layer's count is the sum of its two sublattices, each holding |det| sites; the layer ranges are consecutive; the lattice is the bottom supercell; the layer lattices are bottom, then top |
| Approximant.RoundSqrt3 | periodic_structures.py:247 | n_top lies within 1/2 of sqrt 3 * n_bottom, decided in integers |
| Approximant.NearestUnique | periodic_structures.py:247 | there is only one such integer, so the rounding is well defined (sqrt 3 * n is never a tie) |
| Approximant.NearestNegate | periodic_structures.py:247 | rounding is symmetric: -n rounds to -t |
| Approximant.RoundZero | periodic_structures.py:247-251 | n_top is 0 exactly when n_bottom is 0 |
| Approximant.MakeStructure | periodic_structures.py:245-266 | refused for a shared divisor exactly when n_bottom = 0 or some d > 1 divides both n_bottom and n_top; accepted exactly when they are coprime and 3 does not divide n_top; an accepted result is the two enlarged layers |
| Approximant.Outcome | periodic_structures.py:247-253 | given the nearest integer and the gcd, the builder's outcome: a gcd other than 1 is refused first, then a multiple of 3, and otherwise the structure is built |
| Approximant.BuildCounts | periodic_structures.py:256-261 | the bottom sublattices hold 3 n_bottom^2 sites each and the top ones n_top^2; the total is 6 n_bottom^2 + 2 n_top^2 |
| Approximant.BuildLattice | periodic_structures.py:256-265 | the structure's lattice is the bottom supercell, (2 sqrt 3 n, 0) and (sqrt 3 n, 3 n) over 2; the layer lattices are bottom, then top |
| Approximant.BottomEnlarged | periodic_structures.py:256 | the bottom supercell in closed form |
| Approximant.TopConstantTimesTop | periodic_structures.py:246-248 | n_top times the top lattice constant is the number x with x * sqrt 3 = 3 n_bottom, i.e. n_top * a_top = 3 b n_bottom with b = 1 / sqrt 3 |
| Approximant.TopLatticeClosedForm | periodic_structures.py:229-231 | the top lattice, built as that constant times the primitive rows (2, 0) and (1, sqrt 3) over 2, is (2 sqrt 3 n_bottom, 0) and (sqrt 3 n_bottom, 3 n_bottom) over 2 n_top |
| Approximant.TopEnlarged | periodic_structures.py:258 | the top lattice, with a_top = 3 b n_bottom / n_top, enlarged n_top times in both directions: the vectors (2 sqrt 3 n, 0) and (sqrt 3 n, 3 n), times n_top, over 2 n_top |
| Approximant.BuildCoincide | periodic_structures.py:248-262 | the top supercell closes exactly on the bottom supercell for any nonzero n_top |
| Approximant.SixIsRefused | periodic_structures.py:250-251 | n_bottom = 6 gives n_top = 10 and is refused for the shared divisor 2 |
| Approximant.FiveIsRefused | periodic_structures.py:252-253 | n_bottom = 5 gives n_top = 9 and is refused as a multiple of 3 |
| Approximant.ThreeIsAccepted | periodic_structures.py:245-266 | n_bottom = 3 gives n_top = 5 and a structure of 27 + 27 + 25 + 25 = 104 sites |
| Layered.CoordsXY | periodic_structures.py:60-74 | in-plane positions exist exactly when the source layer (0 for A/B, 1 for the tilde tags) exists and a tilde tag has top lattice vectors; there is one position per site of the source layer |
| Layered.ConcatLayout | periodic_structures.py:30-36 | in the concatenated coordinate array, block k starts at the sum of the sizes before it |
| Layered.LayerRows | periodic_structures.py:30-36 | the rows in `_layer_inds`' range for layer k are exactly layer k's sites |
| Layered.ExtendsCoords | periodic_structures.py:94 | appending blocks keeps the old coordinate rows as a prefix |
| Layered.AppendMults | periodic_structures.py:90-97 | the inner loop keeps the structure consistent: each count matches its sublattice pair, and there is one block per count |
| Layered.AppendMultsShape | periodic_structures.py:90-97 | the inner loop keeps the old structure as a prefix and adds one layer per multiplier |
| Layered.AppendMultsAt | periodic_structures.py:90-97 | the q-th new layer is the positions at height h * mults[q], with the source layer's count, sublattice pair and lattice vectors |
| Layered.AppendMultsLayer | periodic_structures.py:90-97 | the q-th layer the inner loop adds is a copy of the tag's source layer at height h * mults[q] |
| Layered.AppendLayers | periodic_structures.py:86-98 | a successful call yields a consistent structure whose site count is the number of coordinate rows |
| Layered.SourceCountStep | periodic_structures.py:90-97 | the inner loop leaves the site count of every tag's source layer as it was; a layer 1 appended to a single sheet has the count of layer 0 |
| Layered.AppendLayersErrors | periodic_structures.py:60-97 | the call succeeds if and only if every tag, when it is reached, finds its source layer (and, for a tilde tag, top lattice vectors), and that source layer has sites whenever the tag has a multiplier; on failure it reports such a tag |
| Layered.AppendLayersShape | periodic_structures.py:86-97 | on success the old structure is a prefix, with one new layer per (tag, multiplier) |
| Layered.AppendLayersLayer | periodic_structures.py:86-97 | the q-th new layer is the copy that the q-th (tag, multiplier) of the flattened request asks for |
| Layered.AppendLayersAt | periodic_structures.py:86-97 | the same, for the layer index and (tag, multiplier) named once at the start of the induction over the request |
| Layered.AppendLayersHead | periodic_structures.py:86-97 | a layer that the first tag of the request appends is still in place after the rest of the request |
| Layered.AppendLayersTail | periodic_structures.py:86-97 | a layer requested after the first tag lands behind the first tag's layers, as the copy it asks for |
| Layered.AppendMultsLayerKept | periodic_structures.py:90-97 | a layer the inner loop appends survives any later extension of the structure |
| Layered.AppendLayersSpec | periodic_structures.py:86-98 | on success: the structure is valid; the old layers, counts and coordinate rows are an unchanged prefix; one layer is appended per (tag, multiplier) in request order, each a copy of its source layer at height h * multiplier |
| Layered.TwoLayerAppend | periodic_structures.py:47-98 | on a structure that has both layers and top vectors, a request succeeds if and only if every tag with multipliers copies a layer that has sites; each new layer copies the count, sublattice pair and lattice vectors of layer 0 or layer 1 |
| Layered.OneLayerTilde | periodic_structures.py:71 | on a single sheet an A-tilde request fails and reports A-tilde, because layer 1 does not exist |
| Layered.OneLayerBottom | periodic_structures.py:64-93 | on a single sheet, a request whose tags are all A or B succeeds if and only if the sheet has sites or no tag has a multiplier |
| Layered.OneLayerAfterA | periodic_structures.py:68-93 | on a single sheet, A-tilde after one appended A layer succeeds exactly when the sheet has sites and top lattice vectors exist; an empty sheet fails at the A step |

## Left out

- pymatgen is not part of this model. `make_supercell` is represented
  only by its enlarged lattice and its |det| site count per one-site
  sublattice. This leaves out:
  - Cartesian site coordinates and fractional sites;
  - the `rotate_cent` modes ('atom' or 'hole');
  - `pymatgen_struct`.
- Floating point is replaced by exact arithmetic:
  - lattice vectors are exact in Z[sqrt 3];
  - the arccos of the twist angle (line 215) is represented by its
    argument;
  - the trigonometry of the `Graphene` constructor (lines 268-280) and
    `get_vecs_to_NNs` (lines 12-20) are not modelled.
- Approximant.RoundSqrt3: the code rounds a floating-point sqrt 3 *
  n_bottom, which for very large n_bottom can differ from the exact
  nearest integer that the model computes.
- Approximant.MakeStructure: for n_bottom = 0, line 248 computes a NaN
  lattice constant before the gcd check refuses. The model only reports
  the refusal.
- Layered.AppendLayers:
  - the 1/3 (a1 + a2) shift of B and B-tilde is an exact translation;
  - positions are points of `real` coordinates;
  - a failing call is modelled as `Err(tag)` with no structure. The code
    raises after keeping any layers it has already appended.
- Layered.AppendMults: the inner loop is written in closed form. Its own
  appends never change the positions it copies or the source layer it
  reads, so every iteration sees the same data. It is also defined for an
  empty source layer with multipliers, where the loop raises at line 93.
  `Layered.AppendLayers` returns `Err(tag)` in that case and never calls
  it there.
- Layered.CoordsXY: a tag outside A, B, Atld and Btld makes the code fall
  through to None and fail on `len`. The model's tag type has only the
  four tags.
- LayerIndex.LayerIndsSublatt: requires at least as many sublattice
  pairs as layer counts. The code raises an IndexError at line 43 on a
  shorter list; that error path is not modelled.
- Hoppings.Hoppings2to3: requires at least `nsite` tables. The code would
  raise an IndexError on a shorter list; that error path is not
  modelled.
- Bloch.HamiltCellDiff:
  - the phase exp(i k . R) and the lattice product R = m a1 + n a2 are
    abstracted into a function of (m, n);
  - `Bloch.TargetsBelow` requires at least `nsite` tables. On a shorter
    list the code raises an IndexError at line 129, and that error path
    is not modelled. The same holds for `Bloch.HamiltCellDiffConj`;
  - targets j must lie in 0 .. nsite-1. numpy also accepts j in
    -nsite .. -1 and counts it from the end, but `HopKey.j` is a `nat`,
    so such keys are not modelled. Targets at or above `nsite`, where
    numpy raises an IndexError, are excluded by `TargetsBelow`;
  - the diagonal term z * field uses `real` arithmetic.
- Bloch.HamiltCellDiffConj: has the same `requires` as
  `Bloch.HamiltCellDiff`, so the same two IndexErrors are left out.
- `add_hopping_pz` and `add_hopping_wannier` (lines 102-119), including
  the `nlayer > 2` guard, are not part of this model. They only forward
  to hopping calculators in another module.
- `diag_kpts` (lines 137-166) is not part of this model. It calls
  LAPACK's `zheev` and a Fortran projection, and prints progress.
- The tipsi section (lines 282-321) is not part of this model. It is
  I/O: an HDF5 cache, an external sample builder and rescaling.
- Eigenvalues and Bloch periodicity in k are not modelled. They need
  spectral theory and transcendental phases.

## Findings

| source | as written | input that shows it | evidently intended | confidence | as-written member | corrected member |
|---|---|---|---|---|---|---|
| periodic_structures.py:134 | the mirror entry H[j][i] receives the amplitude times the conjugated phase, without conjugating the amplitude | two sites, one hop 0 -> 1 with amplitude t = i and phase 1: H[0][1] = i but H[1][0] = i, not conj(i) = -i | conj(t) * conj(phase), so that H[j][i] = conj(H[i][j]) for every amplitude; the two coincide for the real amplitudes that the hopping builders produce | not executed | Bloch.HamiltCellDiff (shown by Bloch.ComplexAmplitudeBreaksHermiticity and Bloch.SingleHopHermitianIff) | Bloch.HamiltCellDiffConj (Hermitian for all amplitudes; equal to the code's result for real amplitudes by Bloch.RealAmplitudesAgree) |

=== FILE: approximant.dfy ===
/** The 30-degree twisted bilayer approximant (`TBG30Approximant`): the top
    layer is a hexagonal lattice rotated by 30 degrees whose lattice constant
    is stretched so that n_top of its cells span exactly n_bottom-scaled cells
    of the bottom layer.  Lengths are in units of the bottom lattice constant. */
module Approximant {
  import opened Outcomes
  import opened Sqrt3Ring
  import opened Supercell
  import opened IntMath
  import opened LayerIndex

  /** u < sqrt 12 * n, decided in integer arithmetic. */
  predicate Below(u: int, n: int) {
    if n >= 0 then u < 0 || u * u < 12 * (n * n)
    else u < 0 && u * u > 12 * (n * n)
  }

  /** v > sqrt 12 * n, decided in integer arithmetic. */
  predicate Above(v: int, n: int) {
    if n >= 0 then v >= 0 && v * v > 12 * (n * n)
    else v >= 0 || v * v < 12 * (n * n)
  }

  /** t is an integer nearest to sqrt 3 * n: |t - sqrt 3 n| < 1/2, that is
      2t - 1 < sqrt 12 n < 2t + 1. */
  predicate Nearest(n: int, t: int) {
    Below(2 * t - 1, n) && Above(2 * t + 1, n)
  }

  lemma SquareMono(a: int, b: int)
    requires 0 <= a <= b
    ensures a * a <= b * b
  {
    assert b * b - a * a == (b - a) * (b + a);
  }

  /** An odd square is never 12 n^2. */
  lemma OddSquare(r: int, n: int)
    requires r % 2 == 1
    ensures r * r != 12 * (n * n)
  {
    var k := r / 2;
    assert r == 2 * k + 1;
    assert r * r == 2 * (2 * (k * k) + 2 * k) + 1;
    assert 12 * (n * n) == 2 * (6 * (n * n));
  }

  /** `int(round(np.sqrt(3) * n_bottom))`: sqrt 3 n is irrational for n != 0,
      so it is never halfway between two integers and the nearest integer is
      (isqrt(12 n^2) + 1) / 2 for n >= 0; rounding is odd in n. */
  function RoundSqrt3(n: int): (t: int)
    ensures Nearest(n, t)
    decreases if n < 0 then 1 else 0
  {
    if n >= 0 then
      var r := ISqrt(12 * (n * n));
      RoundNonNegative(n, r);
      (r + 1) / 2
    else
      var t' := RoundSqrt3(-n);
      NearestNegate(-n, t');
      -t'
  }

  lemma RoundNonNegative(n: int, r: nat)
    requires n >= 0 && r * r <= 12 * (n * n) < (r + 1) * (r + 1)
    ensures Nearest(n, (r + 1) / 2)
  {
    var t := (r + 1) / 2;
    if r % 2 == 0 {
      assert r == 2 * t;
      if r > 0 {
        SquareMono(r - 1, r);
        assert (r - 1) * (r - 1) != r * r by {
          assert r * r - (r - 1) * (r - 1) == 2 * r - 1;
        }
      }
    } else {
      assert r == 2 * t - 1;
      OddSquare(r, n);
      SquareMono(r + 1, r + 2);
      assert (r + 2) * (r + 2) - (r + 1) * (r + 1) == 2 * r + 3;
    }
  }

  /** Rounding is odd: the nearest integer to -sqrt 3 n is -t. */
  lemma NearestNegate(n: int, t: int)
    requires n > 0 && Nearest(n, t)
    ensures Nearest(-n, -t)
  {
    var u, v := 2 * t - 1, 2 * t + 1;
    assert (-n) * (-n) == n * n;
    assert (-v) * (-v) == v * v && (-u) * (-u) == u * u;
    assert v * v > 0;
    assert v > 0;
  }

  /** A number below sqrt 12 n is below any number above it. */
  lemma Separated(u: int, v: int, n: int)
    requires Below(u, n) && Above(v, n)
    ensures u < v
  {
    if n >= 0 {
      if u >= 0 && u >= v {
        SquareMono(v, u);
      }
    } else {
      if v < 0 && u >= v {
        SquareMono(-u, -v);
      }
    }
  }

  /** The nearest integer is unique, so `RoundSqrt3` is characterised by
      `Nearest`. */
  lemma NearestUnique(n: int, t: int, t': int)
    requires Nearest(n, t) && Nearest(n, t')
    ensures t == t'
  {
    Separated(2 * t - 1, 2 * t' + 1, n);
    Separated(2 * t' - 1, 2 * t + 1, n);
  }

  /** The rounded value vanishes exactly for n_bottom = 0. */
  lemma RoundZero(n: int)
    ensures RoundSqrt3(n) == 0 <==> n == 0
  {
    var t := RoundSqrt3(n);
    if n == 0 {
      assert Below(2 * t - 1, 0) && Above(2 * t + 1, 0);
    } else if t == 0 {
      assert n * n > 0;
    }
  }

  /** Why `make_structure` refuses n_bottom. */
  datatype ApproxError = SharedDivisor | TopMultipleOfThree

  /** Bottom scaling matrix [[n, n], [-n, 2n]]. */
  function BottomSupercell(nb: int): Mat2 {
    Mat2(nb, nb, -nb, 2 * nb)
  }

  /** Top scaling matrix [[t, 0], [0, t]]. */
  function TopSupercell(t: int): Mat2 {
    Mat2(t, 0, 0, t)
  }

  /** n_top times the top lattice constant: a_top = 3 b n_bottom / n_top with
      b = 1 / sqrt 3 in units of the bottom lattice constant, so this is the
      number x with x * sqrt 3 = 3 n_bottom, namely sqrt 3 n_bottom. */
  function TopConstantTimesTop(nb: int): (x: Surd)
    ensures Mul(x, Surd(0, 1)) == OfInt(3 * nb)
  {
    Surd(0, nb)
  }

  /** The unscaled rows (1, 0) and (1/2, sqrt 3 / 2) of the top lattice, over
      the denominator 2. */
  const TopPrimitive: Lattice := Lattice(V2(OfInt(2), Zero), V2(OfInt(1), Surd(0, 1)), 2)

  /** The top primitive lattice: a_top times the unscaled rows, where
      a_top is `TopConstantTimesTop(nb)` over n_top. */
  function TopLattice(nb: int, t: int): Lattice {
    var x := TopConstantTimesTop(nb);
    Lattice(VMul(x, TopPrimitive.v1), VMul(x, TopPrimitive.v2), TopPrimitive.den * t)
  }

  /** Over the denominator 2 n_top the top rows are (2 sqrt 3 n, 0) and
      (sqrt 3 n, 3 n). */
  lemma TopLatticeClosedForm(nb: int, t: int)
    ensures TopLattice(nb, t) == Lattice(V2(Surd(0, 2 * nb), Zero), V2(Surd(0, nb), Surd(3 * nb, 0)), 2 * t)
  {
    var x := TopConstantTimesTop(nb);
    assert Mul(x, OfInt(2)) == Surd(0, 2 * nb);
    assert Mul(x, Zero) == Zero;
    assert Mul(x, OfInt(1)) == Surd(0, nb);
    assert Mul(x, Surd(0, 1)) == Surd(3 * nb, 0);
  }

  /** The cell both layers are enlarged to, once n_top is accepted. */
  function Build(nb: int, t: int): Cell {
    TwistedBilayer(Bottom, BottomSupercell(nb), TopLattice(nb, t), TopSupercell(t))
  }

  /** `TBG30Approximant.make_structure(n_bottom)`: n_top is the integer nearest
      to sqrt 3 n_bottom; n_bottom and n_top must be coprime and n_top must
      not be a multiple of 3; then the bottom layer is enlarged by
      [[n, n], [-n, 2n]] and the top layer by n_top in both directions. */
  function MakeStructure(nb: int): (r: Result<Cell, ApproxError>)
    ensures var t := RoundSqrt3(nb);
      r == Err(SharedDivisor) <==> nb == 0 || exists d :: d > 1 && Divides(d, nb) && Divides(d, t)
    ensures var t := RoundSqrt3(nb);
      r.Ok? <==> nb != 0 && (forall d :: d > 1 ==> !(Divides(d, nb) && Divides(d, t))) && !Divides(3, t)
    ensures r.Ok? ==> r.value == Build(nb, RoundSqrt3(nb)) && RoundSqrt3(nb) != 0
  {
    var t := RoundSqrt3(nb);
    RoundZero(nb);
    CoprimeIff(nb, t);
    if Gcd(nb, t) != 1 then Err(SharedDivisor)
    else if t % 3 == 0 then Err(TopMultipleOfThree)
    else Ok(Build(nb, t))
  }

  /** The accepted cell has 3 n_bottom^2 sites on each bottom sublattice and
      n_top^2 on each top sublattice. */
  lemma BuildCounts(nb: int, t: int)
    ensures var c := Build(nb, t);
      && SublatticeCounts(c, 3 * (nb * nb), t * t)
      && c.layerNsites == LayerSizes(c.layerSublatt)
      && Total(c.layerNsites) == 6 * (nb * nb) + 2 * (t * t)
  {
    var kb, kt := Det(BottomSupercell(nb)), Det(TopSupercell(t));
    assert kb == 3 * (nb * nb);
    assert kt == t * t;
    assert nb * nb >= 0 && t * t >= 0;
    assert Abs(kb) == kb && Abs(kt) == kt;
  }

  /** The accepted cell is spanned by (sqrt 3 n, 0) and (sqrt 3 n / 2, 3 n / 2):
      the bottom lattice enlarged by [[n, n], [-n, 2n]]. */
  lemma BuildLattice(nb: int, t: int)
    ensures var c := Build(nb, t);
      && c.layerLattVecs == [Bottom, TopLattice(nb, t)]
      && c.latt == MakeSupercell(BottomSupercell(nb), Bottom)
      && c.latt == Lattice(V2(Surd(0, 2 * nb), Zero), V2(Surd(0, nb), Surd(3 * nb, 0)), 2)
  {
    BottomEnlarged(nb);
  }

  /** For n_top != 0 the same cell is the top lattice enlarged n_top times in
      both directions: the two layers share one periodic cell. */
  lemma BuildCoincide(nb: int, t: int)
    requires t != 0
    ensures SameVectors(Build(nb, t).latt, MakeSupercell(TopSupercell(t), TopLattice(nb, t)))
  {
    BuildLattice(nb, t);
    TopEnlarged(nb, t);
  }

  lemma BottomEnlarged(nb: int)
    ensures MakeSupercell(BottomSupercell(nb), Bottom) == Lattice(V2(Surd(0, 2 * nb), Zero), V2(Surd(0, nb), Surd(3 * nb, 0)), 2)
  {
    assert Combine(nb, nb, Bottom.v1, Bottom.v2) == V2(Surd(0, 2 * nb), Zero) by {
      assert VScale(nb, Bottom.v1) == V2(Surd(0, nb), Surd(-nb, 0));
      assert VScale(nb, Bottom.v2) == V2(Surd(0, nb), Surd(nb, 0));
    }
    assert Combine(-nb, 2 * nb, Bottom.v1, Bottom.v2) == V2(Surd(0, nb), Surd(3 * nb, 0)) by {
      assert VScale(-nb, Bottom.v1) == V2(Surd(0, -nb), Surd(nb, 0));
      assert VScale(2 * nb, Bottom.v2) == V2(Surd(0, 2 * nb), Surd(2 * nb, 0));
    }
  }

  /** n_top copies of the top lattice, over its denominator 2 n_top, give the
      cell over the denominator 2. */
  lemma TopEnlarged(nb: int, t: int)
    ensures var top := MakeSupercell(TopSupercell(t), TopLattice(nb, t));
      && VScale(2, top.v1) == VScale(2 * t, V2(Surd(0, 2 * nb), Zero))
      && VScale(2, top.v2) == VScale(2 * t, V2(Surd(0, nb), Surd(3 * nb, 0)))
      && top.den == 2 * t
  {
    var l := TopLattice(nb, t);
    TopLatticeClosedForm(nb, t);
    assert Combine(t, 0, l.v1, l.v2) == V2(Surd(0, t * (2 * nb)), Zero) by {
      assert VScale(0, l.v2) == V2(Zero, Zero);
    }
    assert Combine(0, t, l.v1, l.v2) == V2(Surd(0, t * nb), Surd(t * (3 * nb), 0)) by {
      assert VScale(0, l.v1) == V2(Zero, Zero);
    }
  }

  /** The outcome of `make_structure` once n_top and the gcd are known. */
  lemma Outcome(nb: int, t: int, g: int)
    requires Nearest(nb, t) && Gcd(nb, t) == g
    ensures RoundSqrt3(nb) == t
    ensures g != 1 ==> MakeStructure(nb) == Err(SharedDivisor)
    ensures g == 1 && t % 3 == 0 ==> MakeStructure(nb) == Err(TopMultipleOfThree)
    ensures g == 1 && t % 3 != 0 ==> MakeStructure(nb) == Ok(Build(nb, t))
  {
    NearestUnique(nb, RoundSqrt3(nb), t);
  }

  /** n_bottom = 6 rounds to n_top = 10, and both are even. */
  lemma SixIsRefused()
    ensures RoundSqrt3(6) == 10
    ensures MakeStructure(6) == Err(SharedDivisor)
  {
    assert Gcd(6, 10) == 2 by {
      assert Gcd(2, 0) == 2;
      assert Gcd(4, 2) == Gcd(2, 0);
      assert Gcd(6, 4) == Gcd(4, 2);
      assert Gcd(10, 6) == Gcd(6, 4);
      assert Gcd(6, 10) == Gcd(10, 6);
    }
    assert Nearest(6, 10) by {
      assert 19 * 19 < 12 * (6 * 6) < 21 * 21;
    }
    Outcome(6, 10, 2);
  }

  /** n_bottom = 5 rounds to n_top = 9, coprime to 5 but a multiple of 3. */
  lemma FiveIsRefused()
    ensures RoundSqrt3(5) == 9
    ensures MakeStructure(5) == Err(TopMultipleOfThree)
  {
    assert Gcd(5, 9) == 1 by {
      assert Gcd(1, 0) == 1;
      assert Gcd(4, 1) == Gcd(1, 0);
      assert Gcd(5, 4) == Gcd(4, 1);
      assert Gcd(9, 5) == Gcd(5, 4);
      assert Gcd(5, 9) == Gcd(9, 5);
    }
    assert 9 % 3 == 0;
    assert Nearest(5, 9) by {
      assert 17 * 17 < 12 * (5 * 5) < 19 * 19;
    }
    Outcome(5, 9, 1);
  }

  /** n_bottom = 3 rounds to n_top = 5 and is accepted: 27 sites on each
      bottom sublattice and 25 on each top sublattice, 104 in all. */
  lemma ThreeIsAccepted()
    ensures RoundSqrt3(3) == 5
    ensures MakeStructure(3).Ok?
    ensures SublatticeCounts(MakeStructure(3).value, 27, 25)
    ensures Total(MakeStructure(3).value.layerNsites) == 104
  {
    assert Gcd(3, 5) == 1 by {
      assert Gcd(1, 0) == 1;
      assert Gcd(2, 1) == Gcd(1, 0);
      assert Gcd(3, 2) == Gcd(2, 1);
      assert Gcd(5, 3) == Gcd(3, 2);
      assert Gcd(3, 5) == Gcd(5, 3);
    }
    assert 5 % 3 == 2;
    assert Nearest(3, 5) by {
      assert 9 * 9 < 12 * (3 * 3) < 11 * 11;
    }
    Outcome(3, 5, 1);
    BuildCounts(3, 5);
  }
}

=== FILE: bloch.dfy ===
/** Assembly of the Bloch Hamiltonian H(k) from the one-directional hopping
    table.  The phase exp(i k.R) of the cell displaced by m a1 + n a2 is an
    arbitrary function `phase(m, n)`: nothing below depends on its values. */
module Bloch {
  import opened ComplexNumbers
  import opened Hoppings

  type Matrix = seq<seq<Complex>>

  predicate IsSquare(H: Matrix, size: nat) {
    |H| == size && forall a :: 0 <= a < size ==> |H[a]| == size
  }

  predicate Hermitian(H: Matrix)
    requires IsSquare(H, |H|)
  {
    forall a, b :: 0 <= a < |H| && 0 <= b < |H| ==> H[b][a] == Conj(H[a][b])
  }

  /** There is a table for every site, and every target index of the first
      nsite tables names a site. */
  predicate TargetsBelow(hops: seq<Row>, nsite: nat) {
    nsite <= |hops| && forall i, e :: 0 <= i < nsite && e in hops[i] ==> e.key.j < nsite
  }

  predicate RealAmplitudes(hops: seq<Row>, nsite: nat)
    requires nsite <= |hops|
  {
    forall i, e :: 0 <= i < nsite && e in hops[i] ==> IsReal(e.t)
  }

  /** What is added to the mirrored entry (j, i) for a stored hop with
      amplitude t and phase p: the code adds t * conj(p); the conjugate of
      the forward term would be conj(t) * conj(p). */
  datatype Mirror = AsWritten | Conjugated

  function MirrorTerm(mode: Mirror, t: Complex, p: Complex): Complex {
    match mode
    case AsWritten => Mul(t, Conj(p))
    case Conjugated => Mul(Conj(t), Conj(p))
  }

  /** The on-site term: the stacking-axis coordinate times the field on the
      diagonal, and nothing at all when the field is zero. */
  function Onsite(zs: seq<real>, field: real, a: nat, b: nat): Complex
    requires a < |zs|
  {
    if field != 0.0 && a == b then FromReal(zs[a] * field) else Zero
  }

  function InitialMatrix(zs: seq<real>, field: real): (H: Matrix)
    ensures IsSquare(H, |zs|)
    ensures forall a, b :: 0 <= a < |zs| && 0 <= b < |zs| ==> H[a][b] == Onsite(zs, field, a, b)
  {
    seq(|zs|, a requires 0 <= a < |zs| => seq(|zs|, b requires 0 <= b < |zs| => Onsite(zs, field, a, b)))
  }

  /** H[a][b] += v. */
  function AddEntry(H: Matrix, size: nat, a: nat, b: nat, v: Complex): (H': Matrix)
    requires IsSquare(H, size) && a < size && b < size
    ensures IsSquare(H', size)
  {
    H[a := H[a][b := Add(H[a][b], v)]]
  }

  /** One stored hop i -> (m, n, j): the forward term at (i, j), then the
      mirrored term at (j, i), in that order. */
  function AddHop(H: Matrix, size: nat, i: nat, e: Hop, phase: (int, int) -> Complex, mode: Mirror): (H': Matrix)
    requires IsSquare(H, size) && i < size && e.key.j < size
    ensures IsSquare(H', size)
  {
    var p := phase(e.key.m, e.key.n);
    var H1 := AddEntry(H, size, i, e.key.j, Mul(e.t, p));
    AddEntry(H1, size, e.key.j, i, MirrorTerm(mode, e.t, p))
  }

  /** The inner loop over one site's table, in insertion order. */
  function AddRow(H: Matrix, size: nat, i: nat, row: Row, phase: (int, int) -> Complex, mode: Mirror): (H': Matrix)
    requires IsSquare(H, size) && i < size
    requires forall e :: e in row ==> e.key.j < size
    ensures IsSquare(H', size)
    decreases |row|
  {
    if |row| == 0 then H
    else AddRow(AddHop(H, size, i, row[0], phase, mode), size, i, row[1..], phase, mode)
  }

  /** The outer loop over sites from..size-1. */
  function AddSites(H: Matrix, size: nat, hops: seq<Row>, from: nat, phase: (int, int) -> Complex, mode: Mirror): (H': Matrix)
    requires IsSquare(H, size) && from <= size && TargetsBelow(hops, size)
    ensures IsSquare(H', size)
    decreases size - from
  {
    if from == size then H
    else AddSites(AddRow(H, size, from, hops[from], phase, mode), size, hops, from + 1, phase, mode)
  }

  function Assemble(nsite: nat, zs: seq<real>, hops: seq<Row>, field: real, phase: (int, int) -> Complex, mode: Mirror): (H: Matrix)
    requires |zs| == nsite && TargetsBelow(hops, nsite)
    ensures IsSquare(H, nsite)
  {
    AddSites(InitialMatrix(zs, field), nsite, hops, 0, phase, mode)
  }

  // ---------------------------------------------------------------------
  // Reference definition: each entry as the on-site term plus the sum of
  // what every stored hop contributes to it.

  /** What the stored hop i -> e contributes to entry (a, b). */
  function Contribution(i: nat, e: Hop, a: nat, b: nat, phase: (int, int) -> Complex, mode: Mirror): Complex {
    var p := phase(e.key.m, e.key.n);
    Add(if a == i && b == e.key.j then Mul(e.t, p) else Zero,
        if a == e.key.j && b == i then MirrorTerm(mode, e.t, p) else Zero)
  }

  /** Contribution to the fixed entry (a, b), as a function of the hop. */
  function EntryTerm(a: nat, b: nat, phase: (int, int) -> Complex, mode: Mirror): (nat, Hop) -> Complex {
    (i: nat, e: Hop) => Contribution(i, e, a, b, phase, mode)
  }

  /** Sum of f over the entries of one site's table. */
  function RowSum(i: nat, row: Row, f: (nat, Hop) -> Complex): Complex {
    if |row| == 0 then Zero else Add(f(i, row[0]), RowSum(i, row[1..], f))
  }

  /** Sum of f over the tables of sites from..size-1. */
  function TableSum(hops: seq<Row>, from: nat, size: nat, f: (nat, Hop) -> Complex): Complex
    requires from <= size <= |hops|
    decreases size - from
  {
    if from == size then Zero else Add(RowSum(from, hops[from], f), TableSum(hops, from + 1, size, f))
  }

  lemma AddEntryAt(H: Matrix, size: nat, a: nat, b: nat, v: Complex, c: nat, d: nat)
    requires IsSquare(H, size) && a < size && b < size && c < size && d < size
    ensures AddEntry(H, size, a, b, v)[c][d] == if a == c && b == d then Add(H[c][d], v) else H[c][d]
  {
  }

  lemma AddHopEntry(H: Matrix, size: nat, i: nat, e: Hop, phase: (int, int) -> Complex, mode: Mirror, a: nat, b: nat)
    requires IsSquare(H, size) && i < size && e.key.j < size && a < size && b < size
    ensures AddHop(H, size, i, e, phase, mode)[a][b] == Add(H[a][b], Contribution(i, e, a, b, phase, mode))
  {
    var p := phase(e.key.m, e.key.n);
    var H1 := AddEntry(H, size, i, e.key.j, Mul(e.t, p));
    AddEntryAt(H, size, i, e.key.j, Mul(e.t, p), a, b);
    AddEntryAt(H1, size, e.key.j, i, MirrorTerm(mode, e.t, p), a, b);
  }

  lemma {:induction false} AddRowEntry(H: Matrix, size: nat, i: nat, row: Row, phase: (int, int) -> Complex, mode: Mirror, a: nat, b: nat)
    requires IsSquare(H, size) && i < size && a < size && b < size
    requires forall e :: e in row ==> e.key.j < size
    ensures AddRow(H, size, i, row, phase, mode)[a][b] == Add(H[a][b], RowSum(i, row, EntryTerm(a, b, phase, mode)))
    decreases |row|
  {
    if |row| > 0 {
      var f := EntryTerm(a, b, phase, mode);
      var H1 := AddHop(H, size, i, row[0], phase, mode);
      assert row[0] in row;
      AddHopEntry(H, size, i, row[0], phase, mode, a, b);
      AddRowEntry(H1, size, i, row[1..], phase, mode, a, b);
      var c, rest := Contribution(i, row[0], a, b, phase, mode), RowSum(i, row[1..], f);
      assert f(i, row[0]) == c;
      assert AddRow(H, size, i, row, phase, mode) == AddRow(H1, size, i, row[1..], phase, mode);
      assert RowSum(i, row, f) == Add(c, rest);
      AddAssoc(H[a][b], c, rest);
    }
  }

  lemma {:induction false} AddSitesEntry(H: Matrix, size: nat, hops: seq<Row>, from: nat, phase: (int, int) -> Complex, mode: Mirror, a: nat, b: nat)
    requires IsSquare(H, size) && from <= size && TargetsBelow(hops, size) && a < size && b < size
    ensures AddSites(H, size, hops, from, phase, mode)[a][b] == Add(H[a][b], TableSum(hops, from, size, EntryTerm(a, b, phase, mode)))
    decreases size - from
  {
    if from < size {
      var f := EntryTerm(a, b, phase, mode);
      var H1 := AddRow(H, size, from, hops[from], phase, mode);
      AddRowEntry(H, size, from, hops[from], phase, mode, a, b);
      AddSitesEntry(H1, size, hops, from + 1, phase, mode, a, b);
      var r, rest := RowSum(from, hops[from], f), TableSum(hops, from + 1, size, f);
      assert AddSites(H, size, hops, from, phase, mode) == AddSites(H1, size, hops, from + 1, phase, mode);
      assert TableSum(hops, from, size, f) == Add(r, rest);
      AddAssoc(H[a][b], r, rest);
    }
  }

  /** The sequential updates of the assembly loop compute, in every entry,
      the on-site term plus the contributions of all stored hops. */
  lemma AssembleEntries(nsite: nat, zs: seq<real>, hops: seq<Row>, field: real, phase: (int, int) -> Complex, mode: Mirror)
    requires |zs| == nsite && TargetsBelow(hops, nsite)
    ensures forall a, b :: 0 <= a < nsite && 0 <= b < nsite ==>
      Assemble(nsite, zs, hops, field, phase, mode)[a][b] == Add(Onsite(zs, field, a, b), TableSum(hops, 0, nsite, EntryTerm(a, b, phase, mode)))
  {
    forall a, b | 0 <= a < nsite && 0 <= b < nsite
      ensures Assemble(nsite, zs, hops, field, phase, mode)[a][b] == Add(Onsite(zs, field, a, b), TableSum(hops, 0, nsite, EntryTerm(a, b, phase, mode)))
    {
      AddSitesEntry(InitialMatrix(zs, field), nsite, hops, 0, phase, mode, a, b);
    }
  }

  // ---------------------------------------------------------------------
  // Sums over the table.

  lemma {:induction false} RowSumConj(i: nat, row: Row, f: (nat, Hop) -> Complex, g: (nat, Hop) -> Complex)
    requires forall e :: e in row ==> g(i, e) == Conj(f(i, e))
    ensures RowSum(i, row, g) == Conj(RowSum(i, row, f))
    decreases |row|
  {
    if |row| > 0 {
      assert row[0] in row;
      RowSumConj(i, row[1..], f, g);
      ConjAdd(f(i, row[0]), RowSum(i, row[1..], f));
    }
  }

  lemma {:induction false} TableSumConj(hops: seq<Row>, from: nat, size: nat, f: (nat, Hop) -> Complex, g: (nat, Hop) -> Complex)
    requires from <= size <= |hops|
    requires forall i, e :: from <= i < size && e in hops[i] ==> g(i, e) == Conj(f(i, e))
    ensures TableSum(hops, from, size, g) == Conj(TableSum(hops, from, size, f))
    decreases size - from
  {
    if from < size {
      var rf, tf := RowSum(from, hops[from], f), TableSum(hops, from + 1, size, f);
      assert forall e :: e in hops[from] ==> g(from, e) == Conj(f(from, e));
      RowSumConj(from, hops[from], f, g);
      TableSumConj(hops, from + 1, size, f, g);
      ConjAdd(rf, tf);
      assert TableSum(hops, from, size, g) == Add(RowSum(from, hops[from], g), TableSum(hops, from + 1, size, g));
      assert TableSum(hops, from, size, f) == Add(rf, tf);
    }
  }

  lemma {:induction false} RowSumSame(i: nat, row: Row, f: (nat, Hop) -> Complex, g: (nat, Hop) -> Complex)
    requires forall e :: e in row ==> g(i, e) == f(i, e)
    ensures RowSum(i, row, g) == RowSum(i, row, f)
    decreases |row|
  {
    if |row| > 0 {
      assert row[0] in row;
      RowSumSame(i, row[1..], f, g);
    }
  }

  lemma {:induction false} TableSumSame(hops: seq<Row>, from: nat, size: nat, f: (nat, Hop) -> Complex, g: (nat, Hop) -> Complex)
    requires from <= size <= |hops|
    requires forall i, e :: from <= i < size && e in hops[i] ==> g(i, e) == f(i, e)
    ensures TableSum(hops, from, size, g) == TableSum(hops, from, size, f)
    decreases size - from
  {
    if from < size {
      RowSumSame(from, hops[from], f, g);
      TableSumSame(hops, from + 1, size, f, g);
    }
  }

  lemma {:induction false} TableSumEmpty(hops: seq<Row>, from: nat, size: nat, f: (nat, Hop) -> Complex)
    requires from <= size <= |hops|
    requires forall i :: from <= i < size ==> hops[i] == []
    ensures TableSum(hops, from, size, f) == Zero
    decreases size - from
  {
    if from < size {
      TableSumEmpty(hops, from + 1, size, f);
    }
  }

  // ---------------------------------------------------------------------
  // Hermiticity.

  lemma ContributionMirror(i: nat, e: Hop, a: nat, b: nat, phase: (int, int) -> Complex, mode: Mirror)
    requires mode == Conjugated || IsReal(e.t)
    ensures Contribution(i, e, b, a, phase, mode) == Conj(Contribution(i, e, a, b, phase, mode))
  {
    var p := phase(e.key.m, e.key.n);
    ConjMul(e.t, p);
    ConjMul(Conj(e.t), Conj(p));
  }

  /** Hermiticity of the assembled matrix, for every phase function: with
      the conjugated mirror term always, with the code's mirror term when
      every amplitude is real. */
  lemma AssembleHermitian(nsite: nat, zs: seq<real>, hops: seq<Row>, field: real, phase: (int, int) -> Complex, mode: Mirror)
    requires |zs| == nsite && TargetsBelow(hops, nsite)
    requires mode == Conjugated || RealAmplitudes(hops, nsite)
    ensures Hermitian(Assemble(nsite, zs, hops, field, phase, mode))
  {
    var H := Assemble(nsite, zs, hops, field, phase, mode);
    forall a, b | 0 <= a < nsite && 0 <= b < nsite
      ensures H[b][a] == Conj(H[a][b])
    {
      AssembleMirrorEntry(nsite, zs, hops, field, phase, mode, a, b);
    }
  }

  lemma AssembleMirrorEntry(nsite: nat, zs: seq<real>, hops: seq<Row>, field: real, phase: (int, int) -> Complex, mode: Mirror, a: nat, b: nat)
    requires |zs| == nsite && TargetsBelow(hops, nsite) && a < nsite && b < nsite
    requires mode == Conjugated || RealAmplitudes(hops, nsite)
    ensures var H := Assemble(nsite, zs, hops, field, phase, mode); H[b][a] == Conj(H[a][b])
  {
    var f, g := EntryTerm(a, b, phase, mode), EntryTerm(b, a, phase, mode);
    AssembleEntries(nsite, zs, hops, field, phase, mode);
    forall i, e | 0 <= i < nsite && e in hops[i]
      ensures g(i, e) == Conj(f(i, e))
    {
      ContributionMirror(i, e, a, b, phase, mode);
    }
    TableSumConj(hops, 0, nsite, f, g);
    ConjAdd(Onsite(zs, field, a, b), TableSum(hops, 0, nsite, f));
  }

  // ---------------------------------------------------------------------
  // The operation of the source and its corrected form.

  /** `hamilt_cell_diff` as written: entry (a, b) is the on-site term plus
      every stored hop's forward term t * phase at (i, j) and mirrored term
      t * conj(phase) at (j, i); Hermitian whenever the amplitudes are real. */
  function HamiltCellDiff(nsite: nat, zs: seq<real>, hops: seq<Row>, field: real, phase: (int, int) -> Complex): (H: Matrix)
    requires |zs| == nsite && TargetsBelow(hops, nsite)
    ensures IsSquare(H, nsite)
    ensures forall a, b :: 0 <= a < nsite && 0 <= b < nsite ==>
      H[a][b] == Add(Onsite(zs, field, a, b), TableSum(hops, 0, nsite, EntryTerm(a, b, phase, AsWritten)))
    ensures RealAmplitudes(hops, nsite) ==> Hermitian(H)
  {
    AssembleEntries(nsite, zs, hops, field, phase, AsWritten);
    if RealAmplitudes(hops, nsite) then
      AssembleHermitian(nsite, zs, hops, field, phase, AsWritten);
      Assemble(nsite, zs, hops, field, phase, AsWritten)
    else
      Assemble(nsite, zs, hops, field, phase, AsWritten)
  }

  /** The corrected assembly that mirrors conj(t * phase): Hermitian for
      every amplitude table. */
  function HamiltCellDiffConj(nsite: nat, zs: seq<real>, hops: seq<Row>, field: real, phase: (int, int) -> Complex): (H: Matrix)
    requires |zs| == nsite && TargetsBelow(hops, nsite)
    ensures IsSquare(H, nsite)
    ensures forall a, b :: 0 <= a < nsite && 0 <= b < nsite ==>
      H[a][b] == Add(Onsite(zs, field, a, b), TableSum(hops, 0, nsite, EntryTerm(a, b, phase, Conjugated)))
    ensures Hermitian(H)
  {
    AssembleEntries(nsite, zs, hops, field, phase, Conjugated);
    AssembleHermitian(nsite, zs, hops, field, phase, Conjugated);
    Assemble(nsite, zs, hops, field, phase, Conjugated)
  }

  /** The two assemblies agree whenever the amplitudes are real. */
  lemma RealAmplitudesAgree(nsite: nat, zs: seq<real>, hops: seq<Row>, field: real, phase: (int, int) -> Complex)
    requires |zs| == nsite && TargetsBelow(hops, nsite) && RealAmplitudes(hops, nsite)
    ensures HamiltCellDiff(nsite, zs, hops, field, phase) == HamiltCellDiffConj(nsite, zs, hops, field, phase)
  {
    var H := HamiltCellDiff(nsite, zs, hops, field, phase);
    var G := HamiltCellDiffConj(nsite, zs, hops, field, phase);
    forall a, b | 0 <= a < nsite && 0 <= b < nsite
      ensures H[a][b] == G[a][b]
    {
      var f, g := EntryTerm(a, b, phase, AsWritten), EntryTerm(a, b, phase, Conjugated);
      forall i, e | 0 <= i < nsite && e in hops[i]
        ensures g(i, e) == f(i, e)
      {
      }
      TableSumSame(hops, 0, nsite, f, g);
    }
    assert forall a | 0 <= a < nsite :: H[a] == G[a];
  }

  /** With no hoppings the matrix is zero off the diagonal and z * field on
      it (all zero when the field is zero). */
  lemma NoHoppings(nsite: nat, zs: seq<real>, hops: seq<Row>, field: real, phase: (int, int) -> Complex)
    requires |zs| == nsite && nsite <= |hops|
    requires forall i :: 0 <= i < nsite ==> hops[i] == []
    ensures TargetsBelow(hops, nsite)
    ensures forall a, b :: 0 <= a < nsite && 0 <= b < nsite ==>
      HamiltCellDiff(nsite, zs, hops, field, phase)[a][b] == (if a == b then FromReal(zs[a] * field) else Zero)
  {
    forall a, b | 0 <= a < nsite && 0 <= b < nsite
      ensures TableSum(hops, 0, nsite, EntryTerm(a, b, phase, AsWritten)) == Zero
    {
      TableSumEmpty(hops, 0, nsite, EntryTerm(a, b, phase, AsWritten));
    }
  }

  /** Two sites and one stored hop 0 -> (0, 0, 1) with amplitude t. */
  function SingleHop(t: Complex): seq<Row> {
    [[Hop(HopKey(0, 0, 1), t)], []]
  }

  lemma SingleHopSum(t: Complex, f: (nat, Hop) -> Complex)
    ensures TargetsBelow(SingleHop(t), 2)
    ensures TableSum(SingleHop(t), 0, 2, f) == Add(f(0, Hop(HopKey(0, 0, 1), t)), Zero)
  {
    var hops := SingleHop(t);
    assert hops[0][1..] == [];
    assert RowSum(0, hops[0], f) == Add(f(0, hops[0][0]), Zero);
    assert TableSum(hops, 2, 2, f) == Zero;
    assert TableSum(hops, 1, 2, f) == Add(Zero, Zero);
  }

  /** Entry (a, b) of the single-hop matrix: the on-site term plus what the
      one stored hop contributes there. */
  lemma SingleHopEntry(t: Complex, zs: seq<real>, field: real, phase: (int, int) -> Complex, mode: Mirror, a: nat, b: nat)
    requires |zs| == 2 && a < 2 && b < 2
    ensures TargetsBelow(SingleHop(t), 2)
    ensures Assemble(2, zs, SingleHop(t), field, phase, mode)[a][b]
      == Add(Onsite(zs, field, a, b), Add(Contribution(0, Hop(HopKey(0, 0, 1), t), a, b, phase, mode), Zero))
  {
    SingleHopSum(t, EntryTerm(a, b, phase, mode));
    AddSitesEntry(InitialMatrix(zs, field), 2, SingleHop(t), 0, phase, mode, a, b);
  }

  /** The single-hop matrix of the code has real diagonal entries. */
  lemma SingleHopDiagonal(t: Complex, zs: seq<real>, field: real, phase: (int, int) -> Complex)
    requires |zs| == 2
    ensures TargetsBelow(SingleHop(t), 2)
    ensures var H := HamiltCellDiff(2, zs, SingleHop(t), field, phase);
      IsReal(H[0][0]) && IsReal(H[1][1])
  {
    SingleHopEntry(t, zs, field, phase, AsWritten, 0, 0);
    SingleHopEntry(t, zs, field, phase, AsWritten, 1, 1);
  }

  /** For the single hop at a phase p of the cell (0, 0) the code puts t * p
      at (0, 1) ... */
  lemma SingleHopForward(t: Complex, zs: seq<real>, field: real, phase: (int, int) -> Complex)
    requires |zs| == 2
    ensures TargetsBelow(SingleHop(t), 2)
    ensures HamiltCellDiff(2, zs, SingleHop(t), field, phase)[0][1] == Mul(t, phase(0, 0))
  {
    SingleHopEntry(t, zs, field, phase, AsWritten, 0, 1);
  }

  /** ... and t * conj(p) at (1, 0). */
  lemma SingleHopMirror(t: Complex, zs: seq<real>, field: real, phase: (int, int) -> Complex)
    requires |zs| == 2
    ensures TargetsBelow(SingleHop(t), 2)
    ensures HamiltCellDiff(2, zs, SingleHop(t), field, phase)[1][0] == Mul(t, Conj(phase(0, 0)))
  {
    SingleHopEntry(t, zs, field, phase, AsWritten, 1, 0);
  }

  /** The corrected assembly puts conj(t * p) at (1, 0). */
  lemma SingleHopConjMirror(t: Complex, zs: seq<real>, field: real, phase: (int, int) -> Complex)
    requires |zs| == 2
    ensures TargetsBelow(SingleHop(t), 2)
    ensures HamiltCellDiffConj(2, zs, SingleHop(t), field, phase)[1][0] == Conj(Mul(t, phase(0, 0)))
  {
    SingleHopEntry(t, zs, field, phase, Conjugated, 1, 0);
    ConjMul(t, phase(0, 0));
  }

  /** The phase of every cell at k = 0. */
  function UnitPhase(m: int, n: int): Complex {
    FromReal(1.0)
  }

  lemma SingleHopRealAmplitudes(t: Complex)
    ensures IsReal(t) <==> RealAmplitudes(SingleHop(t), 2)
  {
    assert Hop(HopKey(0, 0, 1), t) in SingleHop(t)[0];
  }

  lemma SingleHopNotHermitian(t: Complex, zs: seq<real>, field: real)
    requires |zs| == 2 && !IsReal(t)
    ensures TargetsBelow(SingleHop(t), 2)
    ensures !Hermitian(HamiltCellDiff(2, zs, SingleHop(t), field, UnitPhase))
  {
    SingleHopForward(t, zs, field, UnitPhase);
    SingleHopMirror(t, zs, field, UnitPhase);
    MulOne(t);
    var H := HamiltCellDiff(2, zs, SingleHop(t), field, UnitPhase);
    assert H[0][1] == t && H[1][0] == t;
    assert H[1][0] != Conj(H[0][1]);
  }

  /** At k = 0 the single-hop matrix of the code is Hermitian exactly when
      the amplitude is real: it holds t at both (0, 1) and (1, 0). */
  lemma SingleHopHermitianIff(t: Complex, zs: seq<real>, field: real)
    requires |zs| == 2
    ensures TargetsBelow(SingleHop(t), 2)
    ensures Hermitian(HamiltCellDiff(2, zs, SingleHop(t), field, UnitPhase)) <==> IsReal(t)
  {
    SingleHopSum(t, EntryTerm(0, 0, UnitPhase, AsWritten));
    if IsReal(t) {
      SingleHopRealAmplitudes(t);
      var H := HamiltCellDiff(2, zs, SingleHop(t), field, UnitPhase);
      assert Hermitian(H);
    } else {
      SingleHopNotHermitian(t, zs, field);
    }
  }

  /** The amplitude i breaks Hermiticity of the code's matrix, while the
      corrected assembly puts -i at (1, 0). */
  lemma ComplexAmplitudeBreaksHermiticity(zs: seq<real>, field: real)
    requires |zs| == 2
    ensures TargetsBelow(SingleHop(Complex(0.0, 1.0)), 2)
    ensures !Hermitian(HamiltCellDiff(2, zs, SingleHop(Complex(0.0, 1.0)), field, UnitPhase))
    ensures HamiltCellDiffConj(2, zs, SingleHop(Complex(0.0, 1.0)), field, UnitPhase)[1][0] == Complex(0.0, -1.0)
  {
    var i := Complex(0.0, 1.0);
    SingleHopNotHermitian(i, zs, field);
    SingleHopConjMirror(i, zs, field, UnitPhase);
    MulOne(i);
  }
}

=== FILE: commensurate.dfy ===
/** Commensurate twisted bilayer graphene (`CommensuStruct`): the top layer is
    the bottom layer rotated by the angle of any pair (m, n) other than
    (0, 0) (coprimality is not checked), and both layers are enlarged to the
    common moire cell.  Lengths are in units of the lattice constant a, so
    every coordinate lies in Q(sqrt 3). */
module Commensurate {
  import opened Outcomes
  import opened Sqrt3Ring
  import opened Supercell
  import opened LayerIndex

  /** m^2 + m n + n^2: the number of primitive cells of either layer in the
      moire cell. */
  function CellCount(m: int, n: int): int {
    m * m + m * n + n * n
  }

  /** 4 (m^2 + mn + n^2) = (2m + n)^2 + 3 n^2, so the count is positive
      away from m = n = 0. */
  lemma CellCountPos(m: int, n: int)
    requires m != 0 || n != 0
    ensures CellCount(m, n) > 0
  {
    var u := 2 * m + n;
    CompleteSquare(m, n, u);
    SquareSign(u);
    SquareSign(n);
    if n == 0 {
      assert u == 2 * m;
      SquareSign(m);
      assert u * u == 4 * (m * m);
    }
  }

  lemma CompleteSquare(m: int, n: int, u: int)
    requires u == 2 * m + n
    ensures 4 * CellCount(m, n) == u * u + 3 * (n * n)
  {
  }

  lemma SquareSign(x: int)
    ensures x * x >= 0 && (x != 0 ==> x * x > 0)
  {
  }

  /** The rotation of `rotate_mat_mn`, as exact fractions over a common
      denominator: cos = cosNum / den and sin = sqrt 3 * sinNum / den. */
  datatype Rotation = Rotation(cosNum: int, sinNum: int, den: int)

  /** `rotate_mat_mn`: cos = (m^2 + 4mn + n^2) / (2(m^2 + mn + n^2)) and
      sin = sqrt 3 (m^2 - n^2) / (2(m^2 + mn + n^2)).  Python raises
      ZeroDivisionError when the denominator vanishes, which is `None` here;
      by `CellCountPos` that happens exactly for m = n = 0.  The result is a rotation:
      cos^2 + sin^2 = 1. */
  function RotateMatMn(m: int, n: int): (r: Option<Rotation>)
    ensures r.None? <==> m == 0 && n == 0
    ensures r.Some? ==> r.value.den > 0
    ensures r.Some? ==> r.value.cosNum * r.value.cosNum + 3 * (r.value.sinNum * r.value.sinNum) == r.value.den * r.value.den
  {
    if m == 0 && n == 0 then None
    else
      var den := 2 * CellCount(m, n);
      CellCountPos(m, n);
      var c, s := n * n + m * m + 4 * m * n, m * m - n * n;
      UnitCircle(m, n, c, s, den);
      Some(Rotation(c, s, den))
  }

  /** (m^2 + 4mn + n^2)^2 + 3 (m^2 - n^2)^2 = 4 (m^2 + mn + n^2)^2. */
  lemma UnitCircle(m: int, n: int, c: int, s: int, d: int)
    requires c == n * n + m * m + 4 * m * n && s == m * m - n * n && d == 2 * (n * n + m * m + m * n)
    ensures c * c + 3 * (s * s) == d * d
  {
  }

  /** The cosine from which `make_structure` computes `twist_angle` by arccos:
      0.5 (m^2 + 4mn + n^2) / (n^2 + mn + m^2). */
  function TwistCos(m: int, n: int): real
    requires m != 0 || n != 0
  {
    CellCountPos(m, n);
    0.5 * (m * m + 4 * m * n + n * n) as real / (n * n + m * n + m * m) as real
  }

  /** Comparing a fraction with a positive denominator against k. */
  lemma DivCompare(x: real, d: real, k: real)
    requires d > 0.0
    ensures x / d <= k <==> x <= k * d
    ensures x / d == k <==> x == k * d
  {
    var c := x / d;
    assert c * d == x;
    if c > k {
      assert (c - k) * d > 0.0;
    } else if c < k {
      assert (k - c) * d > 0.0;
    }
  }

  /** Half of x / d, for a positive d, compared with 1 and 1/2. */
  lemma FractionBounds(x: int, d: int)
    requires d > 0
    ensures 0.5 * x as real / d as real <= 1.0 <==> x <= 2 * d
    ensures 0.5 * x as real / d as real == 1.0 <==> x == 2 * d
    ensures 0.5 * x as real / d as real >= 0.5 <==> x >= d
    ensures 0.5 * x as real / d as real == 0.5 <==> x == d
  {
    DivCompare(0.5 * x as real, d as real, 1.0);
    DivCompare(0.5 * x as real, d as real, 0.5);
  }

  /** The recorded twist angle is the angle of the rotation applied to the top
      layer: its cosine is cosNum / den.  It is symmetric in (m, n) while the
      sine changes sign, so (m, n) and (n, m) report the same angle for
      opposite rotations. */
  lemma TwistCosIsRotation(m: int, n: int)
    requires m != 0 || n != 0
    ensures var r := RotateMatMn(m, n).value;
      TwistCos(m, n) == r.cosNum as real / r.den as real
    ensures TwistCos(m, n) == TwistCos(n, m)
    ensures RotateMatMn(n, m).value.cosNum == RotateMatMn(m, n).value.cosNum
    ensures RotateMatMn(n, m).value.den == RotateMatMn(m, n).value.den
    ensures RotateMatMn(n, m).value.sinNum == -RotateMatMn(m, n).value.sinNum
  {
    var r := RotateMatMn(m, n).value;
    var x, e := m * m + 4 * m * n + n * n, n * n + m * n + m * m;
    assert r.cosNum == x && r.den == 2 * e;
    var c := 0.5 * x as real / e as real;
    assert c * e as real == 0.5 * x as real;
    assert c * (2 * e) as real == x as real;
    var c2 := x as real / (2 * e) as real;
    assert c2 * (2 * e) as real == x as real;
    assert n * n + n * m + m * m == e;
    assert n * n + 4 * n * m + m * m == x;
  }

  /** The cosine never exceeds 1 and equals 1 (no rotation) exactly when
      m = n; it is at least 1/2 (a twist of at most 60 degrees) exactly when m
      and n do not have opposite signs, and exactly 1/2 (60 degrees) when one
      of them is 0, so (1, 0) reports 60 degrees. */
  lemma TwistCosBounds(m: int, n: int)
    requires m != 0 || n != 0
    ensures TwistCos(m, n) <= 1.0
    ensures TwistCos(m, n) == 1.0 <==> m == n
    ensures TwistCos(m, n) >= 0.5 <==> m * n >= 0
    ensures TwistCos(m, n) == 0.5 <==> m * n == 0
  {
    var x, e := m * m + 4 * m * n + n * n, n * n + m * n + m * m;
    CellCountPos(m, n);
    FractionBounds(x, e);
    assert 2 * e - x == (m - n) * (m - n);
    assert x - e == 3 * (m * n);
    if m != n {
      assert (m - n) * (m - n) > 0;
    }
  }

  /** The rotation applied to one row vector, times its denominator (the
      source multiplies the matrix by the transposed lattice and transposes
      back). */
  function RotateVec(r: Rotation, v: V2): V2 {
    var s := Surd(0, r.sinNum);
    V2(Sub(Scale(r.cosNum, v.x), Mul(s, v.y)), Add(Mul(s, v.x), Scale(r.cosNum, v.y)))
  }

  /** `latt_vec_top`: both vectors rotated; the denominators multiply. */
  function RotateLattice(r: Rotation, l: Lattice): Lattice {
    Lattice(RotateVec(r, l.v1), RotateVec(r, l.v2), r.den * l.den)
  }

  function BottomSupercell(m: int, n: int): Mat2 {
    Mat2(m + n, -n, n, m)
  }

  function TopSupercell(m: int, n: int): Mat2 {
    Mat2(m + n, -m, m, n)
  }

  /** Both scaling matrices enlarge a primitive cell m^2 + mn + n^2 times. */
  lemma SupercellDets(m: int, n: int)
    ensures Det(BottomSupercell(m, n)) == CellCount(m, n)
    ensures Det(TopSupercell(m, n)) == CellCount(m, n)
  {
  }

  /** The polynomial identities behind the moire cell, with P, Q, D the cosine
      numerator, the sine coefficient and the denominator: one per
      coordinate of the two moire vectors. */
  lemma FirstRowX(m: int, n: int, p: int, q: int, d: int)
    requires p == n * n + m * m + 4 * m * n && q == m * m - n * n && d == 2 * (n * n + m * m + m * n)
    ensures (m + n) * (p + q) - m * (p - q) == m * d
  {
    assert (m + n) * (p + q) - m * (p - q) == n * p + (2 * m + n) * q;
  }

  lemma FirstRowY(m: int, n: int, p: int, q: int, d: int)
    requires p == n * n + m * m + 4 * m * n && q == m * m - n * n && d == 2 * (n * n + m * m + m * n)
    ensures (m + n) * (3 * q - p) - m * (3 * q + p) == -(m + 2 * n) * d
  {
    assert (m + n) * (3 * q - p) - m * (3 * q + p) == 3 * n * q - (2 * m + n) * p;
  }

  lemma SecondRowX(m: int, n: int, p: int, q: int, d: int)
    requires p == n * n + m * m + 4 * m * n && q == m * m - n * n && d == 2 * (n * n + m * m + m * n)
    ensures m * (p + q) + n * (p - q) == (m + n) * d
  {
    assert m * (p + q) + n * (p - q) == (m + n) * p + (m - n) * q;
  }

  lemma SecondRowY(m: int, n: int, p: int, q: int, d: int)
    requires p == n * n + m * m + 4 * m * n && q == m * m - n * n && d == 2 * (n * n + m * m + m * n)
    ensures m * (3 * q - p) + n * (3 * q + p) == (m - n) * d
  {
    assert m * (3 * q - p) + n * (3 * q + p) == 3 * (m + n) * q - (m - n) * p;
  }

  /** The rotated bottom vectors, over the denominator 2 den:
      R (sqrt 3, -1) = (sqrt 3 (P + Q), 3Q - P) and
      R (sqrt 3, 1) = (sqrt 3 (P - Q), 3Q + P). */
  lemma RotatedBottom(r: Rotation)
    ensures RotateLattice(r, Bottom) == Lattice(
      V2(Surd(0, r.cosNum + r.sinNum), Surd(3 * r.sinNum - r.cosNum, 0)),
      V2(Surd(0, r.cosNum - r.sinNum), Surd(3 * r.sinNum + r.cosNum, 0)),
      r.den * 2)
  {
  }

  /** First moire vector: the bottom side is (sqrt 3 m, -(m + 2n)) / 2. */
  lemma FirstRow(m: int, n: int, p: int, q: int, d: int)
    requires (m + n) * (p + q) - m * (p - q) == m * d
    requires (m + n) * (3 * q - p) - m * (3 * q + p) == -(m + 2 * n) * d
    ensures VScale(d * 2, Combine(m + n, -n, Bottom.v1, Bottom.v2))
         == VScale(2, Combine(m + n, -m, V2(Surd(0, p + q), Surd(3 * q - p, 0)), V2(Surd(0, p - q), Surd(3 * q + p, 0))))
  {
    assert Combine(m + n, -n, Bottom.v1, Bottom.v2) == V2(Surd(0, m), Surd(-(m + 2 * n), 0));
    assert Combine(m + n, -m, V2(Surd(0, p + q), Surd(3 * q - p, 0)), V2(Surd(0, p - q), Surd(3 * q + p, 0)))
        == V2(Surd(0, m * d), Surd(-(m + 2 * n) * d, 0));
  }

  /** Second moire vector: the bottom side is (sqrt 3 (m + n), m - n) / 2. */
  lemma SecondRow(m: int, n: int, p: int, q: int, d: int)
    requires m * (p + q) + n * (p - q) == (m + n) * d
    requires m * (3 * q - p) + n * (3 * q + p) == (m - n) * d
    ensures VScale(d * 2, Combine(n, m, Bottom.v1, Bottom.v2))
         == VScale(2, Combine(m, n, V2(Surd(0, p + q), Surd(3 * q - p, 0)), V2(Surd(0, p - q), Surd(3 * q + p, 0))))
  {
    assert Combine(n, m, Bottom.v1, Bottom.v2) == V2(Surd(0, m + n), Surd(m - n, 0));
    assert Combine(m, n, V2(Surd(0, p + q), Surd(3 * q - p, 0)), V2(Surd(0, p - q), Surd(3 * q + p, 0)))
        == V2(Surd(0, (m + n) * d), Surd((m - n) * d, 0));
  }

  /** The moire cell: the bottom lattice enlarged by [[m+n, -n], [n, m]] has
      the same vectors as the rotated top lattice enlarged by
      [[m+n, -m], [m, n]], so the two layers share one periodic cell. */
  lemma SupercellsCoincide(m: int, n: int)
    requires m != 0 || n != 0
    ensures SameVectors(MakeSupercell(BottomSupercell(m, n), Bottom),
                        MakeSupercell(TopSupercell(m, n), RotateLattice(RotateMatMn(m, n).value, Bottom)))
  {
    var r := RotateMatMn(m, n).value;
    var p, q, d := r.cosNum, r.sinNum, r.den;
    RotatedBottom(r);
    FirstRowX(m, n, p, q, d);
    FirstRowY(m, n, p, q, d);
    SecondRowX(m, n, p, q, d);
    SecondRowY(m, n, p, q, d);
    FirstRow(m, n, p, q, d);
    SecondRow(m, n, p, q, d);
  }

  datatype CommensurateError = ZeroDivision

  /** `CommensuStruct.make_structure(m, n)`: rotate the bottom lattice by
      `rotate_mat_mn(m, n)` and enlarge both layers to the moire cell. */
  function MakeStructure(m: int, n: int): (r: Result<Cell, CommensurateError>)
    ensures r.Err? <==> m == 0 && n == 0
  {
    match RotateMatMn(m, n)
    case None => Err(ZeroDivision)
    case Some(rot) => Ok(TwistedBilayer(Bottom, BottomSupercell(m, n), RotateLattice(rot, Bottom), TopSupercell(m, n)))
  }

  /** A successful commensurate structure has m^2 + mn + n^2 sites on every
      sublattice of every layer, 4 (m^2 + mn + n^2) sites in all, layer ranges
      that split the sites in two halves, and a cell that is a supercell of
      both layers' primitive lattices. */
  lemma MakeStructureSpec(m: int, n: int)
    requires m != 0 || n != 0
    ensures MakeStructure(m, n).Ok?
    ensures var c, k := MakeStructure(m, n).value, CellCount(m, n);
      && k > 0
      && SublatticeCounts(c, k, k)
      && c.layerNsites == LayerSizes(c.layerSublatt)
      && Total(c.layerNsites) == 4 * k
      && LayerInds(c.layerNsites) == [Range(0, 2 * k - 1), Range(2 * k, 4 * k - 1)]
      && |c.layerLattVecs| == 2
      && c.layerLattVecs[0] == Bottom
      && c.latt == MakeSupercell(BottomSupercell(m, n), c.layerLattVecs[0])
      && SameVectors(c.latt, MakeSupercell(TopSupercell(m, n), c.layerLattVecs[1]))
  {
    CellCountPos(m, n);
    SupercellDets(m, n);
    SupercellsCoincide(m, n);
  }
}

=== FILE: complex.dfy ===
/** Complex numbers as pairs of exact reals. */
module ComplexNumbers {

  datatype Complex = Complex(re: real, im: real)

  const Zero: Complex := Complex(0.0, 0.0)

  function FromReal(x: real): Complex {
    Complex(x, 0.0)
  }

  function Add(x: Complex, y: Complex): Complex {
    Complex(x.re + y.re, x.im + y.im)
  }

  function Mul(x: Complex, y: Complex): Complex {
    Complex(x.re * y.re - x.im * y.im, x.re * y.im + x.im * y.re)
  }

  function Conj(x: Complex): Complex {
    Complex(x.re, -x.im)
  }

  predicate IsReal(x: Complex) {
    x.im == 0.0
  }

  lemma AddAssoc(x: Complex, y: Complex, z: Complex)
    ensures Add(Add(x, y), z) == Add(x, Add(y, z))
  {
  }

  lemma MulOne(x: Complex)
    ensures Mul(x, FromReal(1.0)) == x
    ensures Mul(x, Conj(FromReal(1.0))) == x
  {
  }

  lemma ConjAdd(x: Complex, y: Complex)
    ensures Conj(Add(x, y)) == Add(Conj(x), Conj(y))
  {
  }

  lemma ConjMul(x: Complex, y: Complex)
    ensures Conj(Mul(x, y)) == Mul(Conj(x), Conj(y))
  {
  }
}

=== FILE: hoppings.dfy ===
/** The per-site hopping tables and their re-keying for the large-scale
    sampling package.  A Python dict keeps insertion order and unique keys,
    so each site's table is an ordered list of (key, amplitude) entries. */
module Hoppings {
  import opened ComplexNumbers
  import opened Outcomes

  /** Hopping from a home-cell site to site j of the cell displaced by
      m a1 + n a2. */
  datatype HopKey = HopKey(m: int, n: int, j: nat)

  /** The same key with an intra-cell layer index l inserted third. */
  datatype HopKey4 = HopKey4(m: int, n: int, l: int, j: nat)

  datatype Hop = Hop(key: HopKey, t: Complex)

  datatype Hop4 = Hop4(key: HopKey4, t: Complex)

  /** One site's hopping table, in insertion order. */
  type Row = seq<Hop>

  type Row4 = seq<Hop4>

  predicate DistinctKeys(row: Row) {
    forall a, b :: 0 <= a < b < |row| ==> row[a].key != row[b].key
  }

  predicate DistinctKeys4(row: Row4) {
    forall a, b :: 0 <= a < b < |row| ==> row[a].key != row[b].key
  }

  /** Dict lookup: the amplitude stored under key k, if any. */
  function Lookup(row: Row, k: HopKey): Option<Complex> {
    if |row| == 0 then None
    else if row[0].key == k then Some(row[0].t)
    else Lookup(row[1..], k)
  }

  function Lookup4(row: Row4, k: HopKey4): Option<Complex> {
    if |row| == 0 then None
    else if row[0].key == k then Some(row[0].t)
    else Lookup4(row[1..], k)
  }

  function Lift(k: HopKey): HopKey4 {
    HopKey4(k.m, k.n, 0, k.j)
  }

  /** One site's table re-keyed: every key (m, n, j) becomes (m, n, 0, j),
      in the same order, with the same amplitude, and no other key appears. */
  function RowTo3(row: Row): (r: Row4)
    ensures |r| == |row|
    ensures forall a :: 0 <= a < |r| ==> r[a].key == Lift(row[a].key) && r[a].t == row[a].t
    ensures forall k :: Lookup4(r, Lift(k)) == Lookup(row, k)
    ensures forall k4 :: Lookup4(r, k4).Some? ==> k4.l == 0
  {
    if |row| == 0 then []
    else [Hop4(Lift(row[0].key), row[0].t)] + RowTo3(row[1..])
  }

  /** `hoppings_2to3`: one re-keyed table for each of the first nsite sites. */
  function Hoppings2to3(hops: seq<Row>, nsite: nat): (r: seq<Row4>)
    requires nsite <= |hops|
    ensures |r| == nsite
    ensures forall i :: 0 <= i < nsite ==> |r[i]| == |hops[i]|
    ensures forall i, k :: 0 <= i < nsite ==> Lookup4(r[i], Lift(k)) == Lookup(hops[i], k)
    ensures forall i, k4 :: 0 <= i < nsite && Lookup4(r[i], k4).Some? ==> k4.l == 0
    ensures forall i :: 0 <= i < nsite ==> (DistinctKeys(hops[i]) <==> DistinctKeys4(r[i]))
  {
    seq(nsite, i requires 0 <= i < nsite => RowTo3(hops[i]))
  }

  function Drop(k: HopKey4): HopKey {
    HopKey(k.m, k.n, k.j)
  }

  /** The inverse re-keying, dropping the layer index. */
  function RowTo2(row: Row4): (r: Row)
    ensures |r| == |row|
  {
    if |row| == 0 then []
    else [Hop(Drop(row[0].key), row[0].t)] + RowTo2(row[1..])
  }

  function Hoppings3to2(hops: seq<Row4>): (r: seq<Row>)
    ensures |r| == |hops|
  {
    seq(|hops|, i requires 0 <= i < |hops| => RowTo2(hops[i]))
  }

  lemma {:induction false} RowRoundTrip(row: Row)
    ensures RowTo2(RowTo3(row)) == row
  {
    if |row| > 0 {
      RowRoundTrip(row[1..]);
      assert RowTo3(row)[1..] == RowTo3(row[1..]);
    }
  }

  /** Dropping the inserted layer index recovers the first nsite tables
      exactly: nothing is lost, reordered or altered by `hoppings_2to3`. */
  lemma HoppingsRoundTrip(hops: seq<Row>, nsite: nat)
    requires nsite <= |hops|
    ensures Hoppings3to2(Hoppings2to3(hops, nsite)) == hops[..nsite]
  {
    forall i | 0 <= i < nsite
      ensures Hoppings3to2(Hoppings2to3(hops, nsite))[i] == hops[i]
    {
      RowRoundTrip(hops[i]);
    }
  }
}

=== FILE: intmath.dfy ===
/** Integer helpers: Python's math.gcd and an exact integer square root. */
module IntMath {

  function Abs(x: int): nat {
    if x < 0 then -x else x
  }

  /** `d` divides `x` (d > 0). */
  predicate Divides(d: int, x: int)
    requires d > 0
  {
    x % d == 0
  }

  /** Python's `math.gcd`: the gcd of |a| and |b|, with gcd(0, 0) = 0, by
      Euclid's algorithm. */
  function Gcd(a: int, b: int): nat
    decreases Abs(b)
  {
    if b == 0 then Abs(a) else Gcd(b, Abs(a) % Abs(b))
  }

  /** A multiple of d leaves no remainder. */
  lemma MultipleMod(d: int, q: int)
    requires d > 0
    ensures Divides(d, d * q)
  {
    var x := d * q;
    var e := q - x / d;
    assert x == d * (x / d) + x % d;
    assert d * e == x % d;
  }

  lemma DividesSum(d: int, x: int, y: int, k: int)
    requires d > 0 && Divides(d, x) && Divides(d, y)
    ensures Divides(d, x + k * y)
  {
    var qx, qy := x / d, y / d;
    assert x == d * qx;
    assert y == d * qy;
    assert k * y == d * (k * qy);
    assert x + k * y == d * (qx + k * qy);
    MultipleMod(d, qx + k * qy);
  }

  lemma DividesAbs(d: int, x: int)
    requires d > 0
    ensures Divides(d, x) <==> Divides(d, Abs(x))
  {
    if x < 0 && Divides(d, x) {
      DividesSum(d, 0, x, -1);
    } else if x < 0 && Divides(d, -x) {
      DividesSum(d, 0, -x, -1);
    }
  }

  /** Both arguments are multiples of their gcd, which is positive unless both
      are zero. */
  lemma {:induction false} GcdDivides(a: int, b: int)
    ensures (a != 0 || b != 0) <==> Gcd(a, b) > 0
    ensures Gcd(a, b) > 0 ==> Divides(Gcd(a, b), a) && Divides(Gcd(a, b), b)
    decreases Abs(b)
  {
    if b == 0 {
      if a != 0 {
        DividesAbs(Abs(a), a);
      }
    } else {
      var r := Abs(a) % Abs(b);
      GcdDivides(b, r);
      var g := Gcd(b, r);
      assert Divides(g, b) && Divides(g, r);
      DividesAbs(g, b);
      assert Abs(a) == r + (Abs(a) / Abs(b)) * Abs(b);
      DividesSum(g, r, Abs(b), Abs(a) / Abs(b));
      DividesAbs(g, a);
    }
  }

  /** Every common divisor divides the gcd: it is the greatest. */
  lemma {:induction false} GcdGreatest(a: int, b: int, d: int)
    requires d > 0 && Divides(d, a) && Divides(d, b)
    ensures Divides(d, Gcd(a, b))
    decreases Abs(b)
  {
    DividesAbs(d, a);
    DividesAbs(d, b);
    if b != 0 {
      var r := Abs(a) % Abs(b);
      assert r == Abs(a) + (-(Abs(a) / Abs(b))) * Abs(b);
      DividesSum(d, Abs(a), Abs(b), -(Abs(a) / Abs(b)));
      GcdGreatest(b, r, d);
    }
  }

  /** The check `gcd(x, y) != 1` of Python means exactly that x and y share a
      divisor greater than one (or are both zero). */
  lemma CoprimeIff(a: int, b: int)
    ensures Gcd(a, b) == 1 <==> (a != 0 || b != 0) && forall d :: d > 1 ==> !(Divides(d, a) && Divides(d, b))
  {
    GcdDivides(a, b);
    if Gcd(a, b) == 1 {
      forall d | d > 1
        ensures !(Divides(d, a) && Divides(d, b))
      {
        if Divides(d, a) && Divides(d, b) {
          GcdGreatest(a, b, d);
        }
      }
    } else if a != 0 || b != 0 {
      var g := Gcd(a, b);
      assert g > 1 && Divides(g, a) && Divides(g, b);
    }
  }

  /** One halving step of the square root: from the root h of x / 4, the
      root of x is 2h or 2h + 1. */
  lemma SqrtStep(x: nat, h: nat)
    requires h * h <= x / 4 < (h + 1) * (h + 1)
    ensures (2 * h) * (2 * h) <= x < (2 * h + 2) * (2 * h + 2)
  {
    var q := x / 4;
    assert x == 4 * q + x % 4;
    assert (2 * h) * (2 * h) == 4 * (h * h);
    assert (2 * h + 2) * (2 * h + 2) == 4 * ((h + 1) * (h + 1));
  }

  /** The integer square root: the largest r with r * r <= x. */
  function ISqrt(x: nat): (r: nat)
    ensures r * r <= x < (r + 1) * (r + 1)
    decreases x
  {
    if x < 4 then (if x == 0 then 0 else 1)
    else
      var h := ISqrt(x / 4);
      SqrtStep(x, h);
      var s := 2 * h;
      if (s + 1) * (s + 1) <= x then s + 1 else s
  }
}

=== FILE: layer_index.dfy ===
/** Layer and sublattice bookkeeping of a layered structure: sites are
    numbered layer after layer, and inside each layer sublattice A comes
    before sublattice B. */
module LayerIndex {
  import opened Outcomes

  /** Number of sites of sublattice A and of sublattice B in one layer. */
  datatype SubCounts = SubCounts(a: nat, b: nat)

  /** An inclusive index range [lo, hi]; it is empty when hi == lo - 1. */
  datatype Range = Range(lo: int, hi: int)

  predicate InRange(p: int, r: Range) {
    r.lo <= p <= r.hi
  }

  /** Site p lies in one of the ranges. */
  ghost predicate Covered(p: int, rs: seq<Range>) {
    exists i :: 0 <= i < |rs| && InRange(p, rs[i])
  }

  /** Sum of a sequence of counts. */
  function Total(counts: seq<nat>): nat {
    if |counts| == 0 then 0 else Total(counts[..|counts| - 1]) + counts[|counts| - 1]
  }

  /** Site count of each layer implied by its sublattice pair. */
  function LayerSizes(sub: seq<SubCounts>): (sizes: seq<nat>)
    ensures |sizes| == |sub|
    ensures forall i :: 0 <= i < |sub| ==> sizes[i] == sub[i].a + sub[i].b
  {
    seq(|sub|, i requires 0 <= i < |sub| => sub[i].a + sub[i].b)
  }

  lemma TotalStep(counts: seq<nat>, i: nat)
    requires i < |counts|
    ensures Total(counts[..i + 1]) == Total(counts[..i]) + counts[i]
  {
    assert counts[..i + 1][..i] == counts[..i];
  }

  lemma {:induction false} TotalMono(counts: seq<nat>, i: nat, j: nat)
    requires i <= j <= |counts|
    ensures Total(counts[..i]) <= Total(counts[..j])
    decreases j - i
  {
    if i < j {
      TotalStep(counts, j - 1);
      TotalMono(counts, i, j - 1);
    }
  }

  lemma TotalWhole(counts: seq<nat>)
    ensures Total(counts[..|counts|]) == Total(counts)
  {
    assert counts[..|counts|] == counts;
  }

  /** `_layer_inds`: layer i owns the indices from the number of sites below
      it up to that number plus its own count, minus one. */
  function LayerInds(counts: seq<nat>): (r: seq<Range>)
    ensures |r| == |counts|
    ensures forall i :: 0 <= i < |r| ==> r[i].lo == Total(counts[..i]) && r[i].hi - r[i].lo + 1 == counts[i]
  {
    seq(|counts|, i requires 0 <= i < |counts| => Range(Total(counts[..i]), Total(counts[..i]) + counts[i] - 1))
  }

  /** The layer ranges tile 0 .. Total(counts) - 1: they start at 0, each
      starts right after the previous one ends, the last ends at the total,
      and every site index lies in exactly one of them. */
  lemma {:induction false} LayerIndsPartition(counts: seq<nat>)
    ensures |counts| > 0 ==> LayerInds(counts)[0].lo == 0
    ensures |counts| > 0 ==> LayerInds(counts)[|counts| - 1].hi == Total(counts) - 1
    ensures forall i :: 0 <= i < |counts| - 1 ==> LayerInds(counts)[i + 1].lo == LayerInds(counts)[i].hi + 1
    ensures forall p :: 0 <= p < Total(counts) <==> Covered(p, LayerInds(counts))
    ensures forall p, i, i' :: 0 <= i < |counts| && 0 <= i' < |counts| && InRange(p, LayerInds(counts)[i]) && InRange(p, LayerInds(counts)[i']) ==> i == i'
  {
    var r := LayerInds(counts);
    if |counts| > 0 {
      assert counts[..0] == [];
      TotalStep(counts, |counts| - 1);
      TotalWhole(counts);
    }
    forall i | 0 <= i < |counts| - 1
      ensures r[i + 1].lo == r[i].hi + 1
    {
      TotalStep(counts, i);
    }
    forall i | 0 <= i < |counts|
      ensures 0 <= r[i].lo && r[i].hi < Total(counts)
    {
      TotalStep(counts, i);
      TotalMono(counts, i + 1, |counts|);
      TotalWhole(counts);
    }
    forall p | 0 <= p < Total(counts)
      ensures Covered(p, r)
    {
      var i := LayerOf(counts, p);
    }
    forall p, i, i' | 0 <= i < |counts| && 0 <= i' < |counts| && InRange(p, r[i]) && InRange(p, r[i'])
      ensures i == i'
    {
      if i < i' {
        TotalStep(counts, i);
        TotalMono(counts, i + 1, i');
      } else if i' < i {
        TotalStep(counts, i');
        TotalMono(counts, i' + 1, i);
      }
    }
  }

  /** The layer holding site p, found by induction on the number of layers. */
  lemma {:induction false} LayerOf(counts: seq<nat>, p: int) returns (i: nat)
    requires 0 <= p < Total(counts)
    ensures i < |counts| && InRange(p, LayerInds(counts)[i])
    decreases |counts|
  {
    var last := |counts| - 1;
    var front := counts[..last];
    TotalStep(counts, last);
    TotalWhole(counts);
    if p < Total(front) {
      i := LayerOf(front, p);
      assert front[..i] == counts[..i];
    } else {
      i := last;
    }
  }

  /** `_layer_inds_sublatt`: inside layer i, sublattice A is the first a_i
      indices of the layer range and sublattice B runs from there to the end
      of the layer. */
  function LayerIndsSublatt(counts: seq<nat>, sub: seq<SubCounts>): (r: seq<(Range, Range)>)
    requires |counts| <= |sub|
    ensures |r| == |counts|
    ensures forall i :: 0 <= i < |r| ==>
      && r[i].0.lo == LayerInds(counts)[i].lo
      && r[i].1.hi == LayerInds(counts)[i].hi
      && r[i].1.lo == r[i].0.hi + 1
      && r[i].0.hi - r[i].0.lo + 1 == sub[i].a
      && (r[i].1.hi - r[i].1.lo + 1 == sub[i].b <==> sub[i].a + sub[i].b == counts[i])
    ensures forall i, p :: 0 <= i < |r| && sub[i].a <= counts[i] ==>
      (InRange(p, LayerInds(counts)[i]) <==> InRange(p, r[i].0) || InRange(p, r[i].1))
    ensures forall i, p :: 0 <= i < |r| ==> !(InRange(p, r[i].0) && InRange(p, r[i].1))
  {
    var li := LayerInds(counts);
    seq(|counts|, i requires 0 <= i < |counts| =>
      (Range(li[i].lo, li[i].lo + sub[i].a - 1), Range(li[i].lo + sub[i].a, li[i].hi)))
  }

  /** `count` copies of `tag`. */
  function Fill(count: nat, tag: int): (r: seq<int>)
    ensures |r| == count && forall p :: 0 <= p < count ==> r[p] == tag
  {
    seq(count, _ => tag)
  }

  /** The label vector, layer by layer: a_i ones then b_i twos. */
  function Labels(sub: seq<SubCounts>): (r: seq<int>)
    ensures |r| == Total(LayerSizes(sub))
  {
    if |sub| == 0 then []
    else
      var last := sub[|sub| - 1];
      assert LayerSizes(sub)[..|sub| - 1] == LayerSizes(sub[..|sub| - 1]);
      Labels(sub[..|sub| - 1]) + Fill(last.a, 1) + Fill(last.b, 2)
  }

  /** `species`: the label vector; numpy refuses to concatenate an empty
      list of layers, which is the `None` case. */
  function Species(sub: seq<SubCounts>): (r: Option<seq<int>>)
    ensures r.None? <==> |sub| == 0
    ensures r.Some? ==> |r.value| == Total(LayerSizes(sub))
  {
    if |sub| == 0 then None else Some(Labels(sub))
  }

  /** Within layer i, which starts after the sites of the layers below it, the
      first a_i labels are 1 and the next b_i labels are 2. */
  lemma {:induction false} LabelsOfLayer(sub: seq<SubCounts>, i: nat, p: int)
    requires i < |sub|
    ensures Total(LayerSizes(sub)[..i]) + sub[i].a + sub[i].b <= |Labels(sub)|
    ensures var start := Total(LayerSizes(sub)[..i]);
      && (start <= p < start + sub[i].a ==> Labels(sub)[p] == 1)
      && (start + sub[i].a <= p < start + sub[i].a + sub[i].b ==> Labels(sub)[p] == 2)
    decreases |sub|
  {
    var last := |sub| - 1;
    var front := sub[..last];
    var sizes := LayerSizes(sub);
    assert sizes[..last] == LayerSizes(front);
    TotalStep(sizes, last);
    TotalWhole(sizes);
    var start := Total(sizes[..i]);
    if i < last {
      assert sizes[..i] == LayerSizes(front)[..i];
      TotalStep(sizes, i);
      TotalMono(sizes, i + 1, last);
      LabelsOfLayer(front, i, p);
    }
  }

  /** Site p exists in the label vector of `sub` and carries label v. */
  predicate LabelIs(sub: seq<SubCounts>, p: int, v: int) {
    0 <= p < |Labels(sub)| && Labels(sub)[p] == v
  }

  /** `species` labels exactly the two sublattice ranges of
      `_layer_inds_sublatt`: 1 on sublattice A, 2 on sublattice B, whenever
      each layer's count is the sum of its sublattice pair. */
  lemma SpeciesMatchesSublattices(counts: seq<nat>, sub: seq<SubCounts>)
    requires counts == LayerSizes(sub)
    ensures |sub| > 0 ==> Species(sub) == Some(Labels(sub))
    ensures forall i, p :: 0 <= i < |sub| && InRange(p, LayerIndsSublatt(counts, sub)[i].0) ==> LabelIs(sub, p, 1)
    ensures forall i, p :: 0 <= i < |sub| && InRange(p, LayerIndsSublatt(counts, sub)[i].1) ==> LabelIs(sub, p, 2)
  {
    forall i, p | 0 <= i < |sub| && InRange(p, LayerIndsSublatt(counts, sub)[i].0)
      ensures LabelIs(sub, p, 1)
    {
      SublatticeLabel(counts, sub, i, p);
    }
    forall i, p | 0 <= i < |sub| && InRange(p, LayerIndsSublatt(counts, sub)[i].1)
      ensures LabelIs(sub, p, 2)
    {
      SublatticeLabel(counts, sub, i, p);
    }
  }

  lemma SublatticeLabel(counts: seq<nat>, sub: seq<SubCounts>, i: nat, p: int)
    requires counts == LayerSizes(sub) && i < |sub|
    ensures InRange(p, LayerIndsSublatt(counts, sub)[i].0) ==> LabelIs(sub, p, 1)
    ensures InRange(p, LayerIndsSublatt(counts, sub)[i].1) ==> LabelIs(sub, p, 2)
  {
    var r := LayerIndsSublatt(counts, sub)[i];
    LabelsOfLayer(sub, i, p);
    assert r.0.lo == Total(counts[..i]);
    assert r.1.hi == Total(counts[..i]) + counts[i] - 1;
  }
}

=== FILE: layered.dfy ===
/** A layered structure and `append_layers`, which stacks copies of its
    bottom or top layer at new heights.  Coordinates are exact reals; the
    rows of the coordinate array are kept grouped by layer, and the array
    itself is the concatenation of the groups. */
module Layered {
  import opened Outcomes
  import opened LayerIndex

  datatype Vec2 = Vec2(x: real, y: real)

  /** The two in-plane lattice vectors of a layer. */
  datatype Basis = Basis(v1: Vec2, v2: Vec2)

  datatype Site = Site(x: real, y: real, z: real)

  /** The layer kinds of `append_layers`: A and B copy the bottom layer,
      A-tilde and B-tilde the top layer; B and B-tilde are shifted by a third
      of the sum of the lattice vectors. */
  datatype Tag = A | B | ATilde | BTilde

  /** The attributes `append_layers` reads and writes: the sites of each
      layer, the per-layer bookkeeping, the bottom and top lattice vectors
      (the top ones are missing for a single graphene sheet), the interlayer
      spacing h and the cached site count. */
  datatype Structure = Structure(
    layers: seq<seq<Site>>,
    layerNsites: seq<nat>,
    layerSublatt: seq<SubCounts>,
    layerLattVecs: seq<Basis>,
    lattVecBott: Basis,
    lattVecTop: Option<Basis>,
    h: real,
    nsite: nat)

  /** The blocks one after the other. */
  function Concat(blocks: seq<seq<Site>>): seq<Site> {
    if |blocks| == 0 then [] else Concat(blocks[..|blocks| - 1]) + blocks[|blocks| - 1]
  }

  /** The coordinate array `coords`: all sites, layer after layer. */
  function Coords(s: Structure): seq<Site> {
    Concat(s.layers)
  }

  /** The per-layer bookkeeping agrees with itself and with the sites: at
      least one layer, each layer's count is its sublattice sum and its
      number of sites, and one basis per layer. */
  predicate Consistent(s: Structure) {
    && |s.layerNsites| >= 1
    && s.layerNsites == LayerSizes(s.layerSublatt)
    && |s.layers| == |s.layerNsites|
    && (forall k :: 0 <= k < |s.layers| ==> |s.layers[k]| == s.layerNsites[k])
    && |s.layerLattVecs| == |s.layerNsites|
  }

  /** A consistent structure whose cached site count is up to date. */
  predicate Valid(s: Structure) {
    Consistent(s) && s.nsite == |Coords(s)|
  }

  /** Index of the layer a tag copies. */
  function Source(tag: Tag): nat {
    match tag
    case A => 0
    case B => 0
    case ATilde => 1
    case BTilde => 1
  }

  function Third(v: Basis): Vec2 {
    Vec2((v.v1.x + v.v2.x) / 3.0, (v.v1.y + v.v2.y) / 3.0)
  }

  function Translate(xy: seq<Vec2>, d: Vec2): (r: seq<Vec2>)
    ensures |r| == |xy|
  {
    seq(|xy|, p requires 0 <= p < |xy| => Vec2(xy[p].x + d.x, xy[p].y + d.y))
  }

  function Plane(sites: seq<Site>): (r: seq<Vec2>)
    ensures |r| == |sites|
  {
    seq(|sites|, p requires 0 <= p < |sites| => Vec2(sites[p].x, sites[p].y))
  }

  /** The height of the layer placed at `mult` interlayer spacings. */
  function Height(h: real, mult: int): real {
    h * mult as real
  }

  /** The layer whose sites sit above the points xy at height z. */
  function Layer(xy: seq<Vec2>, z: real): (r: seq<Site>)
    ensures |r| == |xy|
  {
    seq(|xy|, p requires 0 <= p < |xy| => Site(xy[p].x, xy[p].y, z))
  }

  /** A tag can be served by a structure with n layers: its source layer
      exists, and a tilde layer also needs the top lattice vectors, which the
      code reads for A-tilde as well as B-tilde. */
  predicate Available(s: Structure, tag: Tag, n: nat) {
    Source(tag) < n && (tag.ATilde? || tag.BTilde? ==> s.lattVecTop.Some?)
  }

  /** `_coords_xy`: the in-plane positions of the source layer, shifted for
      B and B-tilde; `None` where the code fails on a missing layer count or
      missing top lattice vectors. */
  function CoordsXY(s: Structure, tag: Tag): (r: Option<seq<Vec2>>)
    requires Consistent(s)
    ensures r.Some? <==> Available(s, tag, |s.layerNsites|)
    ensures r.Some? ==> |r.value| == s.layerNsites[Source(tag)]
  {
    if !Available(s, tag, |s.layerNsites|) then None
    else
      var xy := Plane(s.layers[Source(tag)]);
      match tag
      case A => Some(xy)
      case B => Some(Translate(xy, Third(s.lattVecBott)))
      case ATilde => Some(xy)
      case BTilde => Some(Translate(xy, Third(s.lattVecTop.value)))
  }

  /** The request flattened in dict order: one (tag, multiplier) per new
      layer. */
  function Flatten(req: seq<(Tag, seq<int>)>): (r: seq<(Tag, int)>)
  {
    if |req| == 0 then [] else Pairs(req[0].0, req[0].1) + Flatten(req[1..])
  }

  /** One (tag, multiplier) pair per multiplier of the list. */
  function Pairs(tag: Tag, mults: seq<int>): (r: seq<(Tag, int)>)
    ensures |r| == |mults|
    ensures forall q :: 0 <= q < |mults| ==> r[q] == (tag, mults[q])
  {
    if |mults| == 0 then [] else [(tag, mults[0])] + Pairs(tag, mults[1..])
  }

  // ---------------------------------------------------------------------
  // Properties.

  /** Row i of the coordinate array belongs to the layer whose index range
      contains i: layer k occupies rows Total(layerNsites[..k]) onwards, as
      many as it has sites. */
  lemma {:induction false} ConcatLayout(blocks: seq<seq<Site>>, counts: seq<nat>, k: nat)
    requires |blocks| == |counts| && k < |blocks|
    requires forall j :: 0 <= j < |blocks| ==> |blocks[j]| == counts[j]
    ensures |Concat(blocks)| == Total(counts)
    ensures Total(counts[..k]) + counts[k] <= Total(counts)
    ensures Concat(blocks)[Total(counts[..k])..Total(counts[..k]) + counts[k]] == blocks[k]
    decreases |blocks|
  {
    var n := |blocks| - 1;
    var front := blocks[..n];
    ConcatFront(blocks, counts);
    if k < n {
      ConcatLayout(front, counts[..n], k);
      assert counts[..n][..k] == counts[..k];
      var lo := Total(counts[..k]);
      assert Concat(blocks) == Concat(front) + blocks[n];
      SliceOfPrefix(Concat(front), blocks[n], lo, lo + counts[k]);
    } else {
      assert counts[..k] == counts[..n];
    }
  }

  lemma SliceOfPrefix(a: seq<Site>, b: seq<Site>, lo: nat, hi: nat)
    requires lo <= hi <= |a|
    ensures (a + b)[lo..hi] == a[lo..hi]
  {
    assert forall i :: lo <= i < hi ==> (a + b)[i] == a[i];
  }

  /** The last block follows all the others, which fill Total of their
      counts. */
  lemma {:induction false} ConcatFront(blocks: seq<seq<Site>>, counts: seq<nat>)
    requires |blocks| == |counts| && 0 < |blocks|
    requires forall j :: 0 <= j < |blocks| ==> |blocks[j]| == counts[j]
    ensures |Concat(blocks[..|blocks| - 1])| == Total(counts[..|blocks| - 1])
    ensures |Concat(blocks)| == Total(counts)
    decreases |blocks|
  {
    var n := |blocks| - 1;
    if n > 0 {
      ConcatFront(blocks[..n], counts[..n]);
    } else {
      assert counts[..n] == [];
    }
    assert counts[..n][..|counts[..n]|] == counts[..n];
  }

  /** `_layer_inds` is the layout of the coordinate array: the rows of
      layer k's index range are exactly the sites of layer k. */
  lemma LayerRows(s: Structure, k: nat)
    requires Consistent(s) && k < |s.layerNsites|
    ensures var r := LayerInds(s.layerNsites)[k];
      0 <= r.lo <= r.hi + 1 <= |Coords(s)| && Coords(s)[r.lo..r.hi + 1] == s.layers[k]
  {
    ConcatLayout(s.layers, s.layerNsites, k);
  }

  /** t keeps all of s as a prefix and the same global vectors and spacing. */
  predicate Extends(s: Structure, t: Structure) {
    && |s.layers| <= |t.layers| && t.layers[..|s.layers|] == s.layers
    && |s.layerNsites| <= |t.layerNsites| && t.layerNsites[..|s.layerNsites|] == s.layerNsites
    && |s.layerSublatt| <= |t.layerSublatt| && t.layerSublatt[..|s.layerSublatt|] == s.layerSublatt
    && |s.layerLattVecs| <= |t.layerLattVecs| && t.layerLattVecs[..|s.layerLattVecs|] == s.layerLattVecs
    && t.h == s.h && t.lattVecBott == s.lattVecBott && t.lattVecTop == s.lattVecTop
  }

  /** Appending layers leaves the old rows of the coordinate array where
      they were. */
  lemma {:induction false} ConcatPrefix(blocks: seq<seq<Site>>, k: nat)
    requires k <= |blocks|
    ensures |Concat(blocks[..k])| <= |Concat(blocks)|
    ensures Concat(blocks)[..|Concat(blocks[..k])|] == Concat(blocks[..k])
    decreases |blocks| - k
  {
    if k == |blocks| {
      assert blocks[..k] == blocks;
    } else {
      var n := |blocks| - 1;
      ConcatPrefix(blocks[..n], k);
      assert blocks[..n][..k] == blocks[..k];
      var p := Concat(blocks[..k]);
      assert Concat(blocks)[..|p|] == Concat(blocks[..n])[..|p|];
    }
  }

  lemma ExtendsCoords(s: Structure, t: Structure)
    requires Extends(s, t)
    ensures |Coords(s)| <= |Coords(t)| && Coords(t)[..|Coords(s)|] == Coords(s)
  {
    ConcatPrefix(t.layers, |s.layers|);
  }

  /** Layer L of t is a copy of its source layer for `tag` at height h * mult:
      same count, same sublattice pair, same lattice vectors, and the
      (shifted) in-plane positions of the source layer. */
  predicate LayerIs(t: Structure, L: nat, tag: Tag, mult: int)
    requires Consistent(t)
  {
    && Available(t, tag, L) && L < |t.layerNsites|
    && t.layerNsites[L] == t.layerNsites[Source(tag)]
    && t.layerSublatt[L] == t.layerSublatt[Source(tag)]
    && t.layerLattVecs[L] == t.layerLattVecs[Source(tag)]
    && t.layers[L] == Layer(CoordsXY(t, tag).value, Height(t.h, mult))
  }

  /** The inner loop: one new layer per multiplier, in list order, each the
      points xy at height h * mult with the count, sublattice pair and
      lattice vectors of the tag's source layer.  The loop reads only xy and
      the source layer, which its own appends never change, so its result is
      written here in one piece. */
  function AppendMults(s: Structure, tag: Tag, xy: seq<Vec2>, mults: seq<int>): (t: Structure)
    requires Consistent(s) && Source(tag) < |s.layerNsites| && |xy| == s.layerNsites[Source(tag)]
    ensures Consistent(t)
  {
    var k := Source(tag);
    var t := s.(layers := s.layers + seq(|mults|, q requires 0 <= q < |mults| => Layer(xy, Height(s.h, mults[q]))),
                layerNsites := s.layerNsites + seq(|mults|, q => |xy|),
                layerSublatt := s.layerSublatt + seq(|mults|, q => s.layerSublatt[k]),
                layerLattVecs := s.layerLattVecs + seq(|mults|, q => s.layerLattVecs[k]));
    assert t.layerNsites == LayerSizes(t.layerSublatt);
    t
  }

  /** `append_layers`: for each tag in request order compute its in-plane
      positions once, then append one layer per multiplier; finally refresh
      the cached site count.  `Err(tag)` is the first tag the structure
      cannot serve when it is reached: its source layer or the top lattice
      vectors are missing, or its source layer has no sites and it has a
      multiplier, where the height column [[z]] * 0 is one-dimensional and
      the concatenation fails. */
  function AppendLayers(s: Structure, req: seq<(Tag, seq<int>)>): (r: Result<Structure, Tag>)
    requires Consistent(s)
    ensures r.Ok? ==> Valid(r.value)
    decreases |req|
  {
    if |req| == 0 then Ok(s.(nsite := |Coords(s)|))
    else
      match CoordsXY(s, req[0].0)
      case None => Err(req[0].0)
      case Some(xy) =>
        if |xy| == 0 && |req[0].1| > 0 then Err(req[0].0)
        else AppendLayers(AppendMults(s, req[0].0, xy, req[0].1), req[1..])
  }

  lemma ExtendsRefl(s: Structure)
    ensures Extends(s, s)
  {
    assert s.layers[..|s.layers|] == s.layers;
    assert s.layerNsites[..|s.layerNsites|] == s.layerNsites;
    assert s.layerSublatt[..|s.layerSublatt|] == s.layerSublatt;
    assert s.layerLattVecs[..|s.layerLattVecs|] == s.layerLattVecs;
  }

  lemma ExtendsTrans(s: Structure, t: Structure, u: Structure)
    requires Extends(s, t) && Extends(t, u)
    ensures Extends(s, u)
  {
    assert u.layers[..|s.layers|] == u.layers[..|t.layers|][..|s.layers|];
    assert u.layerNsites[..|s.layerNsites|] == u.layerNsites[..|t.layerNsites|][..|s.layerNsites|];
    assert u.layerSublatt[..|s.layerSublatt|] == u.layerSublatt[..|t.layerSublatt|][..|s.layerSublatt|];
    assert u.layerLattVecs[..|s.layerLattVecs|] == u.layerLattVecs[..|t.layerLattVecs|][..|s.layerLattVecs|];
  }

  /** The positions a tag copies do not change once they exist. */
  lemma CoordsXYStable(s: Structure, t: Structure, tag: Tag)
    requires Consistent(s) && Consistent(t) && Extends(s, t) && Available(s, tag, |s.layerNsites|)
    ensures CoordsXY(t, tag) == CoordsXY(s, tag)
  {
    assert t.layers[Source(tag)] == t.layers[..|s.layers|][Source(tag)];
  }

  lemma LayerIsStable(s: Structure, t: Structure, L: nat, tag: Tag, mult: int)
    requires Consistent(s) && Consistent(t) && Extends(s, t)
    ensures LayerIs(s, L, tag, mult) ==> LayerIs(t, L, tag, mult)
  {
    if LayerIs(s, L, tag, mult) {
      CoordsXYStable(s, t, tag);
      assert t.layers[L] == t.layers[..|s.layers|][L];
      assert t.layerNsites[L] == t.layerNsites[..|s.layerNsites|][L];
      assert t.layerNsites[Source(tag)] == t.layerNsites[..|s.layerNsites|][Source(tag)];
      assert t.layerSublatt[L] == t.layerSublatt[..|s.layerSublatt|][L];
      assert t.layerSublatt[Source(tag)] == t.layerSublatt[..|s.layerSublatt|][Source(tag)];
      assert t.layerLattVecs[L] == t.layerLattVecs[..|s.layerLattVecs|][L];
      assert t.layerLattVecs[Source(tag)] == t.layerLattVecs[..|s.layerLattVecs|][Source(tag)];
    }
  }

  /** The inner loop keeps everything that was there and adds one layer per
      multiplier. */
  lemma AppendMultsShape(s: Structure, tag: Tag, mults: seq<int>)
    requires Consistent(s) && Available(s, tag, |s.layerNsites|)
    ensures var t := AppendMults(s, tag, CoordsXY(s, tag).value, mults);
      Extends(s, t) && |t.layerNsites| == |s.layerNsites| + |mults|
  {
    var t := AppendMults(s, tag, CoordsXY(s, tag).value, mults);
    assert t.layers[..|s.layers|] == s.layers;
    assert t.layerNsites[..|s.layerNsites|] == s.layerNsites;
    assert t.layerSublatt[..|s.layerSublatt|] == s.layerSublatt;
    assert t.layerLattVecs[..|s.layerLattVecs|] == s.layerLattVecs;
  }

  /** The inner loop's q-th new layer is a copy of the source layer at
      height h * mults[q]. */
  lemma AppendMultsLayer(s: Structure, tag: Tag, mults: seq<int>, q: nat)
    requires Consistent(s) && Available(s, tag, |s.layerNsites|) && q < |mults|
    ensures LayerIs(AppendMults(s, tag, CoordsXY(s, tag).value, mults), |s.layerNsites| + q, tag, mults[q])
  {
    var xy := CoordsXY(s, tag).value;
    var t := AppendMults(s, tag, xy, mults);
    AppendMultsShape(s, tag, mults);
    CoordsXYStable(s, t, tag);
    AppendMultsAt(s, tag, xy, mults, q);
  }

  /** Row |layers| + q of the inner loop's result against its source row. */
  lemma AppendMultsAt(s: Structure, tag: Tag, xy: seq<Vec2>, mults: seq<int>, q: nat)
    requires Consistent(s) && Source(tag) < |s.layerNsites| && |xy| == s.layerNsites[Source(tag)] && q < |mults|
    ensures var t := AppendMults(s, tag, xy, mults);
      var L := |s.layerNsites| + q;
      var k := Source(tag);
      && L < |t.layerNsites|
      && t.layers[L] == Layer(xy, Height(t.h, mults[q]))
      && t.layerNsites[L] == t.layerNsites[k]
      && t.layerSublatt[L] == t.layerSublatt[k]
      && t.layerLattVecs[L] == t.layerLattVecs[k]
  {
  }

  lemma FlattenPrefix(req: seq<(Tag, seq<int>)>, k: nat)
    requires 0 < k <= |req|
    ensures |Flatten(req[..k])| == |req[0].1| + |Flatten(req[1..][..k - 1])|
  {
    assert req[..k][1..] == req[1..][..k - 1];
  }

  /** The site count of the layer a tag copies, as it stands whenever the
      tag can be served.  A layer 1 that a single sheet did not have can only
      have been appended by an A or B tag, so it has the count of layer 0. */
  function SourceCount(s: Structure, tag: Tag): nat
    requires Consistent(s)
  {
    if Source(tag) < |s.layerNsites| then s.layerNsites[Source(tag)] else s.layerNsites[0]
  }

  /** Tag k of the request can be served when it is reached: by then the
      structure has its original layers plus one per earlier multiplier, and
      a tag with multipliers needs a source layer with sites. */
  predicate Reachable(s: Structure, req: seq<(Tag, seq<int>)>, k: nat)
    requires Consistent(s) && k < |req|
  {
    && Available(s, req[k].0, |s.layerNsites| + |Flatten(req[..k])|)
    && (|req[k].1| > 0 ==> SourceCount(s, req[k].0) > 0)
  }

  /** The inner loop leaves the source count of every tag as it was. */
  lemma SourceCountStep(s: Structure, tag: Tag, mults: seq<int>, other: Tag)
    requires Consistent(s) && Available(s, tag, |s.layerNsites|)
    ensures SourceCount(AppendMults(s, tag, CoordsXY(s, tag).value, mults), other) == SourceCount(s, other)
  {
    var xy := CoordsXY(s, tag).value;
    var t := AppendMults(s, tag, xy, mults);
    AppendMultsShape(s, tag, mults);
    assert t.layerNsites[0] == t.layerNsites[..|s.layerNsites|][0];
    if Source(other) < |s.layerNsites| {
      assert t.layerNsites[Source(other)] == t.layerNsites[..|s.layerNsites|][Source(other)];
    } else if |mults| > 0 {
      AppendMultsAt(s, tag, xy, mults, 0);
    }
  }

  /** `append_layers` fails exactly when some tag, at the moment it is
      reached, names a layer the structure does not yet have, is a tilde tag
      and finds no top lattice vectors, or has multipliers and an empty
      source layer; it then reports such a tag. */
  lemma {:induction false} AppendLayersErrors(s: Structure, req: seq<(Tag, seq<int>)>)
    requires Consistent(s)
    ensures var r := AppendLayers(s, req);
      && (r.Ok? <==> forall k :: 0 <= k < |req| ==> Reachable(s, req, k))
      && (r.Err? ==> exists k :: 0 <= k < |req| && req[k].0 == r.error && !Reachable(s, req, k))
    decreases |req|
  {
    var r := AppendLayers(s, req);
    if |req| > 0 {
      var tag := req[0].0;
      assert req[..0] == [];
      assert Reachable(s, req, 0) == (Available(s, tag, |s.layerNsites|) && (|req[0].1| > 0 ==> SourceCount(s, tag) > 0));
      if Available(s, tag, |s.layerNsites|) && (|req[0].1| > 0 ==> SourceCount(s, tag) > 0) {
        var xy := CoordsXY(s, tag).value;
        var s' := AppendMults(s, tag, xy, req[0].1);
        AppendMultsShape(s, tag, req[0].1);
        AppendLayersErrors(s', req[1..]);
        assert r == AppendLayers(s', req[1..]);
        assert s'.lattVecTop == s.lattVecTop;
        forall k | 0 < k < |req|
          ensures Reachable(s', req[1..], k - 1) == Reachable(s, req, k)
        {
          FlattenPrefix(req, k);
          SourceCountStep(s, tag, req[0].1, req[k].0);
        }
        if r.Err? {
          var k' :| 0 <= k' < |req[1..]| && req[1..][k'].0 == r.error && !Reachable(s', req[1..], k');
          assert req[k' + 1].0 == r.error && !Reachable(s, req, k' + 1);
        } else {
          forall k | 0 <= k < |req|
            ensures Reachable(s, req, k)
          {
            if k > 0 {
              assert Reachable(s', req[1..], k - 1);
            }
          }
        }
      }
    }
  }

  lemma FlattenAt(req: seq<(Tag, seq<int>)>, q: nat)
    requires 0 < |req| && q < |Flatten(req)|
    ensures |Flatten(req)| == |req[0].1| + |Flatten(req[1..])|
    ensures q < |req[0].1| ==> Flatten(req)[q] == (req[0].0, req[0].1[q])
    ensures q >= |req[0].1| ==> Flatten(req)[q] == Flatten(req[1..])[q - |req[0].1|]
  {
  }

  /** A successful `append_layers` extends the structure by one layer per
      (tag, multiplier) of the request. */
  lemma {:induction false} AppendLayersShape(s: Structure, req: seq<(Tag, seq<int>)>)
    requires Consistent(s)
    ensures var r := AppendLayers(s, req);
      r.Ok? ==> Extends(s, r.value) && |r.value.layerNsites| == |s.layerNsites| + |Flatten(req)|
    decreases |req|
  {
    var r := AppendLayers(s, req);
    if |req| == 0 {
      ExtendsRefl(s);
      assert Extends(s, r.value);
    } else if r.Ok? {
      var tag := req[0].0;
      var s' := AppendMults(s, tag, CoordsXY(s, tag).value, req[0].1);
      AppendMultsShape(s, tag, req[0].1);
      AppendLayersShape(s', req[1..]);
      assert r == AppendLayers(s', req[1..]);
      ExtendsTrans(s, s', r.value);
    }
  }

  /** A successful `append_layers` is the same call on the rest of the
      request after the first tag's layers. */
  lemma AppendLayersStep(s: Structure, req: seq<(Tag, seq<int>)>, t: Structure)
    requires Consistent(s) && 0 < |req| && AppendLayers(s, req) == Ok(t)
    ensures Available(s, req[0].0, |s.layerNsites|)
    ensures AppendLayers(AppendMults(s, req[0].0, CoordsXY(s, req[0].0).value, req[0].1), req[1..]) == Ok(t)
  {
  }

  /** The q-th new layer of a successful `append_layers` is the copy the
      q-th (tag, multiplier) of the flattened request asks for. */
  lemma AppendLayersLayer(s: Structure, req: seq<(Tag, seq<int>)>, t: Structure, q: nat)
    requires Consistent(s) && AppendLayers(s, req) == Ok(t) && q < |Flatten(req)|
    ensures LayerIs(t, |s.layerNsites| + q, Flatten(req)[q].0, Flatten(req)[q].1)
  {
    AppendLayersAt(s, req, t, q, |s.layerNsites| + q, Flatten(req)[q]);
  }

  /** The same, with the layer's index L in t and its (tag, multiplier) e
      named, so that the induction carries them unchanged. */
  lemma {:induction false} AppendLayersAt(s: Structure, req: seq<(Tag, seq<int>)>, t: Structure, q: nat, L: nat, e: (Tag, int))
    requires Consistent(s) && AppendLayers(s, req) == Ok(t) && q < |Flatten(req)|
    requires L == |s.layerNsites| + q && e == Flatten(req)[q]
    ensures LayerIs(t, L, e.0, e.1)
    decreases |req|, 1
  {
    if q < |req[0].1| {
      AppendLayersHead(s, req, t, q, L, e);
    } else {
      AppendLayersTail(s, req, t, q, L, e);
    }
  }

  /** The layers the first tag appends survive the rest of the request. */
  lemma AppendLayersHead(s: Structure, req: seq<(Tag, seq<int>)>, t: Structure, q: nat, L: nat, e: (Tag, int))
    requires Consistent(s) && AppendLayers(s, req) == Ok(t) && 0 < |req| && q < |req[0].1|
    requires L == |s.layerNsites| + q && e == Flatten(req)[q]
    ensures LayerIs(t, L, e.0, e.1)
  {
    FlattenAt(req, q);
    AppendLayersStep(s, req, t);
    var tag := req[0].0;
    var s' := AppendMults(s, tag, CoordsXY(s, tag).value, req[0].1);
    AppendMultsShape(s, tag, req[0].1);
    AppendLayersShape(s', req[1..]);
    AppendMultsLayerKept(s, tag, req[0].1, q, t, L, e);
  }

  /** A layer appended by `AppendMults` is still in place in any later
      extension of the result. */
  lemma AppendMultsLayerKept(s: Structure, tag: Tag, mults: seq<int>, q: nat, t: Structure, L: nat, e: (Tag, int))
    requires Consistent(s) && Available(s, tag, |s.layerNsites|) && q < |mults|
    requires Consistent(t) && Extends(AppendMults(s, tag, CoordsXY(s, tag).value, mults), t)
    requires L == |s.layerNsites| + q && e == (tag, mults[q])
    ensures LayerIs(t, L, e.0, e.1)
  {
    var s' := AppendMults(s, tag, CoordsXY(s, tag).value, mults);
    AppendMultsShape(s, tag, mults);
    AppendMultsLayer(s, tag, mults, q);
    LayerIsStable(s', t, L, tag, mults[q]);
  }

  /** The layers of the rest of the request come after the first tag's. */
  lemma {:induction false} AppendLayersTail(s: Structure, req: seq<(Tag, seq<int>)>, t: Structure, q: nat, L: nat, e: (Tag, int))
    requires Consistent(s) && AppendLayers(s, req) == Ok(t) && 0 < |req| && |req[0].1| <= q < |Flatten(req)|
    requires L == |s.layerNsites| + q && e == Flatten(req)[q]
    ensures LayerIs(t, L, e.0, e.1)
    decreases |req|, 0
  {
    FlattenAt(req, q);
    AppendLayersStep(s, req, t);
    var tag := req[0].0;
    var s' := AppendMults(s, tag, CoordsXY(s, tag).value, req[0].1);
    AppendMultsShape(s, tag, req[0].1);
    AppendLayersAt(s', req[1..], t, q - |req[0].1|, L, e);
  }

  /** When `append_layers` succeeds it keeps the old structure, and so the
      old rows of the coordinate array, as a prefix,
      appends one layer per (tag, multiplier) of the request in order, each a
      copy of its source layer at height h * multiplier, and refreshes the
      site count. */
  lemma AppendLayersSpec(s: Structure, req: seq<(Tag, seq<int>)>)
    requires Consistent(s)
    ensures var r := AppendLayers(s, req);
      r.Ok? ==>
        && Valid(r.value) && Extends(s, r.value)
        && |Coords(s)| <= |Coords(r.value)| && Coords(r.value)[..|Coords(s)|] == Coords(s)
        && |r.value.layerNsites| == |s.layerNsites| + |Flatten(req)|
        && forall q :: 0 <= q < |Flatten(req)| ==>
             LayerIs(r.value, |s.layerNsites| + q, Flatten(req)[q].0, Flatten(req)[q].1)
  {
    AppendLayersShape(s, req);
    if AppendLayers(s, req).Ok? {
      ExtendsCoords(s, AppendLayers(s, req).value);
      forall q | 0 <= q < |Flatten(req)|
        ensures LayerIs(AppendLayers(s, req).value, |s.layerNsites| + q, Flatten(req)[q].0, Flatten(req)[q].1)
      {
        AppendLayersLayer(s, req, AppendLayers(s, req).value, q);
      }
    }
  }

  /** Layer L of t has the count, sublattice pair and lattice vectors of
      layer k of s. */
  predicate CopiesLayer(s: Structure, t: Structure, L: nat, k: nat) {
    && k < |s.layerNsites| && k < |s.layerSublatt| && k < |s.layerLattVecs|
    && L < |t.layerNsites| && L < |t.layerSublatt| && L < |t.layerLattVecs|
    && t.layerNsites[L] == s.layerNsites[k]
    && t.layerSublatt[L] == s.layerSublatt[k]
    && t.layerLattVecs[L] == s.layerLattVecs[k]
  }

  lemma CopiesOriginal(s: Structure, t: Structure, L: nat, tag: Tag, mult: int)
    requires Consistent(s) && Consistent(t) && Extends(s, t) && Source(tag) < |s.layerNsites|
    requires LayerIs(t, L, tag, mult)
    ensures CopiesLayer(s, t, L, Source(tag))
  {
    var k := Source(tag);
    assert t.layerNsites[k] == t.layerNsites[..|s.layerNsites|][k];
    assert t.layerSublatt[k] == t.layerSublatt[..|s.layerSublatt|][k];
    assert t.layerLattVecs[k] == t.layerLattVecs[..|s.layerLattVecs|][k];
  }

  /** For a structure that already has its top layer and top lattice
      vectors, the shape of a twisted bilayer, a request succeeds exactly
      when every tag with multipliers copies a layer that has sites, and
      each new layer copies layer 0 or layer 1 of the original structure. */
  lemma TwoLayerAppend(s: Structure, req: seq<(Tag, seq<int>)>)
    requires Consistent(s) && |s.layerNsites| >= 2 && s.lattVecTop.Some?
    ensures AppendLayers(s, req).Ok? <==>
      forall k :: 0 <= k < |req| && |req[k].1| > 0 ==> s.layerNsites[Source(req[k].0)] > 0
    ensures AppendLayers(s, req).Ok? ==> forall q :: 0 <= q < |Flatten(req)| ==>
      CopiesLayer(s, AppendLayers(s, req).value, |s.layerNsites| + q, Source(Flatten(req)[q].0))
  {
    TwoLayerReachable(s, req);
    if AppendLayers(s, req).Ok? {
      TwoLayerCopies(s, req, AppendLayers(s, req).value);
    }
  }

  lemma TwoLayerReachable(s: Structure, req: seq<(Tag, seq<int>)>)
    requires Consistent(s) && |s.layerNsites| >= 2 && s.lattVecTop.Some?
    ensures AppendLayers(s, req).Ok? <==>
      forall k :: 0 <= k < |req| && |req[k].1| > 0 ==> s.layerNsites[Source(req[k].0)] > 0
  {
    AppendLayersErrors(s, req);
    forall k | 0 <= k < |req|
      ensures Reachable(s, req, k) <==> (|req[k].1| > 0 ==> s.layerNsites[Source(req[k].0)] > 0)
    {
    }
  }

  lemma TwoLayerCopies(s: Structure, req: seq<(Tag, seq<int>)>, t: Structure)
    requires Consistent(s) && |s.layerNsites| >= 2 && AppendLayers(s, req) == Ok(t)
    ensures forall q :: 0 <= q < |Flatten(req)| ==>
      CopiesLayer(s, t, |s.layerNsites| + q, Source(Flatten(req)[q].0))
  {
    AppendLayersShape(s, req);
    forall q | 0 <= q < |Flatten(req)|
      ensures CopiesLayer(s, t, |s.layerNsites| + q, Source(Flatten(req)[q].0))
    {
      NewLayerCopies(s, req, t, q);
    }
  }

  lemma NewLayerCopies(s: Structure, req: seq<(Tag, seq<int>)>, t: Structure, q: nat)
    requires Consistent(s) && |s.layerNsites| >= 2 && AppendLayers(s, req) == Ok(t) && Extends(s, t)
    requires q < |Flatten(req)|
    ensures CopiesLayer(s, t, |s.layerNsites| + q, Source(Flatten(req)[q].0))
  {
    assert Valid(t);
    var e := Flatten(req)[q];
    AppendLayersLayer(s, req, t, q);
    CopiesOriginal(s, t, |s.layerNsites| + q, e.0, e.1);
  }

  /** On a single sheet (one layer) a tilde tag has no source layer. */
  lemma OneLayerTilde(s: Structure)
    requires Consistent(s) && |s.layerNsites| == 1
    ensures AppendLayers(s, [(ATilde, [2])]) == Err(ATilde)
  {
  }

  /** Bottom-layer copies of a single sheet: a request whose tags are all
      A or B finds layer 0 at each step, so it succeeds exactly when the
      sheet has sites or no tag has a multiplier. */
  lemma OneLayerBottom(s: Structure, req: seq<(Tag, seq<int>)>)
    requires Consistent(s) && |s.layerNsites| == 1
    requires forall k :: 0 <= k < |req| ==> req[k].0 == A || req[k].0 == B
    ensures AppendLayers(s, req).Ok? <==>
      (s.layerNsites[0] > 0 || forall k :: 0 <= k < |req| ==> |req[k].1| == 0)
  {
    AppendLayersErrors(s, req);
    forall k | 0 <= k < |req|
      ensures Reachable(s, req, k) <==> (|req[k].1| > 0 ==> s.layerNsites[0] > 0)
    {
    }
  }

  /** Once an A layer has been appended to a single sheet, an A-tilde request
      finds a layer 1.  The request succeeds exactly when the sheet has sites
      and top lattice vectors exist; an empty sheet already fails at the A
      step. */
  lemma OneLayerAfterA(s: Structure)
    requires Consistent(s) && |s.layerNsites| == 1
    ensures AppendLayers(s, [(A, [-1]), (ATilde, [2])]).Ok? <==> s.layerNsites[0] > 0 && s.lattVecTop.Some?
    ensures s.layerNsites[0] == 0 ==> AppendLayers(s, [(A, [-1]), (ATilde, [2])]) == Err(A)
  {
    var req := [(A, [-1]), (ATilde, [2])];
    AppendLayersErrors(s, req);
    assert req[..0] == [];
    assert req[..1] == [(A, [-1])];
    assert Flatten(req[..1]) == [(A, -1)] by {
      assert [(A, [-1])][1..] == [];
    }
    assert Reachable(s, req, 0) <==> s.layerNsites[0] > 0;
  }
}

=== FILE: outcomes.dfy ===
/** Failure-carrying results used by every builder: the Python code raises an
    exception where these return `Err`. */
module Outcomes {

  datatype Option<+T> = None | Some(value: T)

  datatype Result<+T, +E> = Ok(value: T) | Err(error: E)
}

=== FILE: sqrt3.dfy ===
/** The ring Z[sqrt 3]: a number `Surd(p, q)` stands for p + q * sqrt 3, with
    (sqrt 3)^2 = 3.  Every lattice vector of the two hexagonal layers, in
    units of the bottom lattice constant, is such a number divided by a
    positive integer, so identities between them can be checked exactly in
    integer arithmetic. */
module Sqrt3Ring {

  datatype Surd = Surd(p: int, q: int)

  const Zero: Surd := Surd(0, 0)

  function OfInt(x: int): Surd {
    Surd(x, 0)
  }

  function Add(x: Surd, y: Surd): Surd {
    Surd(x.p + y.p, x.q + y.q)
  }

  function Sub(x: Surd, y: Surd): Surd {
    Surd(x.p - y.p, x.q - y.q)
  }

  function Mul(x: Surd, y: Surd): Surd {
    Surd(x.p * y.p + 3 * (x.q * y.q), x.p * y.q + x.q * y.p)
  }

  function Scale(k: int, x: Surd): Surd {
    Surd(k * x.p, k * x.q)
  }

  /** A plane vector with coordinates in Z[sqrt 3]. */
  datatype V2 = V2(x: Surd, y: Surd)

  function VAdd(u: V2, v: V2): V2 {
    V2(Add(u.x, v.x), Add(u.y, v.y))
  }

  function VScale(k: int, v: V2): V2 {
    V2(Scale(k, v.x), Scale(k, v.y))
  }

  /** Both coordinates multiplied by the same element of Z[sqrt 3]. */
  function VMul(x: Surd, v: V2): V2 {
    V2(Mul(x, v.x), Mul(x, v.y))
  }
}

=== FILE: supercell.dfy ===
/** Supercells of a plane lattice, as pymatgen's `make_supercell` builds them
    for the two moire-pattern constructors, and the bookkeeping both
    constructors do once the four one-site sublattices are enlarged. */
module Supercell {
  import opened Sqrt3Ring
  import opened IntMath
  import opened LayerIndex

  /** A 2x2 integer scaling matrix with rows (a, b) and (c, d); the third row
      and column of the source's 3x3 matrices are always (0, 0, 1). */
  datatype Mat2 = Mat2(a: int, b: int, c: int, d: int)

  /** Two plane lattice vectors, one per row, each equal to the given
      Z[sqrt 3] vector divided by `den` (in units of the lattice constant). */
  datatype Lattice = Lattice(v1: V2, v2: V2, den: int)

  /** The bottom primitive lattice of both moire constructors, over the
      denominator 2: a1 = (sqrt 3, -1) / 2 and a2 = (sqrt 3, 1) / 2. */
  const Bottom: Lattice := Lattice(V2(Surd(0, 1), Surd(-1, 0)), V2(Surd(0, 1), Surd(1, 0)), 2)

  /** Two lattices with non-zero denominators describe the same two vectors. */
  predicate SameVectors(l: Lattice, k: Lattice) {
    && VScale(k.den, l.v1) == VScale(l.den, k.v1)
    && VScale(k.den, l.v2) == VScale(l.den, k.v2)
  }

  function Det(s: Mat2): int {
    s.a * s.d - s.b * s.c
  }

  /** k1 * v1 + k2 * v2. */
  function Combine(k1: int, k2: int, v1: V2, v2: V2): V2 {
    VAdd(VScale(k1, v1), VScale(k2, v2))
  }

  /** `make_supercell`: row i of the new lattice is s[i][0] * v1 + s[i][1] * v2. */
  function MakeSupercell(s: Mat2, l: Lattice): (r: Lattice)
    ensures r.den == l.den
  {
    Lattice(Combine(s.a, s.b, l.v1, l.v2), Combine(s.c, s.d, l.v1, l.v2), l.den)
  }

  /** What a moire constructor records: the supercell lattice (`latt_vec`), the
      site count of each layer, the sublattice counts of each layer, and the
      primitive lattice of each layer (`layer_latt_vecs`). */
  datatype Cell = Cell(latt: Lattice, layerNsites: seq<nat>, layerSublatt: seq<SubCounts>, layerLattVecs: seq<Lattice>)

  /** Each of the two bottom sublattices holds kb sites and each of the two
      top sublattices kt sites. */
  predicate SublatticeCounts(c: Cell, kb: int, kt: int) {
    && |c.layerSublatt| == 2
    && c.layerSublatt[0].a == kb && c.layerSublatt[0].b == kb
    && c.layerSublatt[1].a == kt && c.layerSublatt[1].b == kt
  }

  /** The common tail of both `make_structure` methods: two sublattices per
      layer, each a one-site structure enlarged by the layer's scaling matrix
      into |det| sites, bottom layer first; the supercell lattice is the
      enlarged bottom lattice. */
  function TwistedBilayer(bott: Lattice, sBott: Mat2, top: Lattice, sTop: Mat2): (c: Cell)
    ensures c.layerNsites == LayerSizes(c.layerSublatt)
    ensures c.layerSublatt == [SubCounts(Abs(Det(sBott)), Abs(Det(sBott))), SubCounts(Abs(Det(sTop)), Abs(Det(sTop)))]
    ensures LayerInds(c.layerNsites) == [Range(0, 2 * Abs(Det(sBott)) - 1), Range(2 * Abs(Det(sBott)), 2 * Abs(Det(sBott)) + 2 * Abs(Det(sTop)) - 1)]
    ensures Total(c.layerNsites) == 2 * Abs(Det(sBott)) + 2 * Abs(Det(sTop))
    ensures c.latt == MakeSupercell(sBott, bott) && c.layerLattVecs == [bott, top]
  {
    var nb := Abs(Det(sBott));
    var nt := Abs(Det(sTop));
    var counts := [nb + nb, nt + nt];
    assert counts[..2] == counts;
    assert counts[..1] == [nb + nb];
    assert counts[..1][..0] == [] && counts[..0] == [];
    Cell(MakeSupercell(sBott, bott), counts, [SubCounts(nb, nb), SubCounts(nt, nt)], [bott, top])
  }
}
